=== FILE: README.md ===
# Connect four with a Monte-Carlo tree search, modelled in Dafny

This project models `jeu.c`, a connect-four game on a 6×7 board in which the
computer plays by Monte-Carlo tree search (MCTS). The model covers two layers.

The first layer is the rules:

- playing a move (`jouerCoup`);
- the list of legal moves (`coups_possibles`);
- the end-of-game test (`testFin`), including the row-major order of its scan.

The second layer is the integer bookkeeping of the search tree:

- building nodes (`nouveauNoeud`, `ajouterEnfant`);
- the biased choice of the move to expand (`choisirMeilleurCoupGagnant`);
- the expansion (`creation_enfants`);
- the in-place rollout (`simulation`);
- backpropagation (`fin_simulation`);
- the descent of one cycle;
- the driver `ordijoue_mcts`, which builds the root and runs the cycles.

Modules, one file each:

- `Regles` (`regles.dfy`): the board as a flat sequence of 42 characters, with cell (i, j) at index 7·i + j. It holds the state, the moves, `jouerCoup` and `coups_possibles`.
- `Fin` (`fin.dfy`): `testFin`. It checks the scan against an independent definition of "four in a row in any of the eight directions".
- `Arbre` (`arbre.dfy`): the tree as an arena, a sequence of nodes whose parent and children are indices. It holds the validity invariant, `ajouterEnfant` and the walk up the parent chain.
- `Rollout` (`rollout.dfy`): `simulation`, whose termination is measured by the number of blank cells.
- `Selection` (`selection.dfy`): the two argmax loops of the driver. One is the descent by B-value; the other is the final choice by win ratio. Both run over abstract scores.
- `Mcts` (`mcts.dfy`): the move choice, the expansion, backpropagation, one cycle, and the driver.

Inputs that the source gets from its environment are parameters:

- each value `rand()` would return is an argument `alea`;
- the wall-clock budget becomes a sequence of random values, one cycle per value, with at least one, since the source's `do … while` runs once;
- the floating-point UCB1 score is a function parameter `ucb`, applied to (parent simulations, child wins, child simulations). The only thing assumed of it is that it is non-negative wherever the source computes it.

A win ratio is an exact rational number. The source's 0/0 ratio of an unvisited child is a NaN, which loses every `>` comparison; here it is `None`, and it is never chosen.

Two behaviours of the source are kept on purpose:

- A cycle simulates and backpropagates from the leaf the descent reached, not from the child the expansion just added. The rollout overwrites that leaf's own state.
- When both players own a line, `testFin` reports the line it meets first in row-major order. After a rollout round this can happen, and `Fin.OrdreDuBalayage` shows a board where the human is reported as the winner although the computer also has four in a row. `Rollout.OrdreDuBalayageEnPartie` reaches such a board by legal play followed by one rollout round.

## Model

| member | source | states |
|---|---|---|
| Regles.JouerCoup | jeu.c:130-145 | The move is refused (code 0, state unchanged) exactly when its cell is occupied. Otherwise it writes 'O' if `joueur` is non-zero, else 'X'; it changes no other cell, passes the turn to 1 - joueur and returns 1. |
| Regles.JouerCoupRemplitUneCase | jeu.c:130-145 | A successful move fills exactly one blank cell; a refused move fills none. |
| Regles.JouerCoupAnnulable | jeu.c:130-145 | A successful move is undone by blanking its cell and handing the turn back, which recovers the state before the move. |
| Regles.JouerCoupDeuxFois | jeu.c:133-134 | Playing the same move again is refused, because its cell is now occupied. |
| Regles.PleinSsiOccupees | jeu.c:268-321 | The board is full exactly when the count of non-blank cells reaches 42, the count `testFin` keeps in `k`. |
| Regles.LigneLibre | jeu.c:158-160 | The scan up a column from row i returns the first blank cell it meets, all cells from row i up to it being occupied, or -1 when none of them is blank. |
| Regles.CoupsDepuis | jeu.c:157-165 | From column j on: at most one move per column, in strictly increasing column order, each at the lowest blank cell of its column. |
| Regles.ColonneOuverteLigneLibre | jeu.c:158-160 | The scan up a column finds a blank row exactly when the column has a blank cell. |
| Regles.CoupsDepuisColonnes | jeu.c:157-165 | From column j on, a column gets a move exactly when it has a blank cell. |
| Regles.CoupsPossibles | jeu.c:149-172 | At most 7 moves, in strictly increasing column order, each at the lowest blank cell of its column. A move is listed for a column exactly when the column has a blank cell. |
| Regles.ToutesColonnesOuvertes | jeu.c:149-172 | When the top row is blank, the legal moves are exactly one per column, listed from column 0 to column 6. |
| Regles.CoupsPossiblesNonVides | jeu.c:149-172 | A board that is not full has at least one legal move, so the `rand() % k` of the move choice never divides by zero. |
| Fin.BalayerCorrect | jeu.c:272-324 | The scan from cell (i, j) reports a win exactly when some cell at or after (i, j) anchors a line; the winner is given by the stone of the first such anchor. Otherwise it reports a draw exactly when all 42 cells are non-blank, and NON otherwise. |
| Fin.AncresSsiPuissance4 | jeu.c:277-313 | The four directions the scan tries from each cell find a line exactly when the board has four equal non-blank cells in a row, in any of the eight directions. |
| Fin.AncreAligne | jeu.c:277-313 | A cell that passes the scan's test is the first cell of a line of its own stone. |
| Fin.AligneAncre | jeu.c:277-313 | Every line, in any direction, has at one end a cell that passes the scan's test with the same stone. |
| Fin.TestFinCorrect | jeu.c:266-325 | A win is reported exactly when four in a row exist, and a computer win only when 'O' has a line. A draw is reported exactly when there is no line and the board is full; NON exactly when there is no line and a blank cell. A win is decided by the first line in row-major order. |
| Fin.OrdreDuBalayage | jeu.c:272-317 | On a board where 'X' owns row 0 and 'O' owns row 1, the computer has a line but the test reports a human win. |
| Arbre.AjouterEnfant | jeu.c:196-240 | The parent's children grow by exactly the new node, at the end. The child has no statistics and no children; it links back to the parent, belongs to the other player, and holds the parent's state with the move played. Every other node is unchanged, and the tree stays valid. |
| Arbre.AjoutValide | jeu.c:231-240 | Appending a fresh leaf under a node with fewer than 9 children keeps the tree valid: parent and children links agree, there are at most 9 children per node, wins ≤ simulations, and a child has no more simulations than its parent. |
| Arbre.SurCheminPrefixe | jeu.c:415-425 | Appending nodes without changing the old parent links keeps, for an old node, the set of nodes on its path to the root. |
| Arbre.SurCheminRacine | jeu.c:415-425 | The parent chain of every node reaches the root. |
| Arbre.CheminParEnfantRacine | jeu.c:415-425 | The parent chain of every node other than the root passes through some child of the root. |
| Arbre.Remonter | jeu.c:411-427 | Every node on the parent chain from n, n included, gains one simulation and the reward in wins. Every other node is unchanged. |
| Arbre.RemonterValide | jeu.c:411-427 | Backpropagation with a reward of 0 or 1 keeps the links and the validity of the tree, including wins ≤ simulations. |
| Arbre.EtatRemplaceValide | jeu.c:391-406 | Overwriting the state of one node changes neither the links nor the validity of the tree. |
| Rollout.JouerTous | jeu.c:396-400 | One round of moves never overwrites an occupied cell. |
| Rollout.TourComplet | jeu.c:396-400 | When a round's moves name blank cells in distinct columns, every move succeeds, and the blank cells decrease by the number of moves. |
| Rollout.JouerTousConcat | jeu.c:396-400 | A round split into two lists of moves plays as the first list followed by the second. |
| Rollout.EnCoursJouable | jeu.c:393-396 | A state the end-of-game test reports as NON has at least one legal move, so every round of the rollout plays. |
| Rollout.Simulation | jeu.c:391-406 | The rollout terminates, ending in a state whose test is not NON. A finished state is left as it is. |
| Rollout.SimulationGardePions | jeu.c:391-406 | Every stone on the board before the rollout is still there after it. |
| Rollout.OrdreDuBalayageEnPartie | jeu.c:391-406 | From a position reached by legal play (X on rows 3-5 of column 0, O on rows 3-5 of column 1, X to move), the rollout stops after one round. On the final board the computer owns a line of four, yet the test reports a human win. |
| Selection.PremierMaxDepuis | jeu.c:476-490 | From index i on, the loop `if (b > max)`, started from a best score of -1, finds the index of the first strictly greatest score, or none when no score exceeds -1. |
| Selection.PremierMax | jeu.c:471-493 | The index of the first greatest score: no score exceeds it and every earlier score is smaller. There is none exactly when no score is above -1. |
| Selection.ScoresEnfants | jeu.c:478-486 | Every child has a defined B-value. It is the sentinel 1000000 when the child is unvisited, and otherwise its UCB1 score from the parent's simulations and the child's wins and simulations. No B-value is negative when UCB1 scores are not, which lets the loop's initial best score of -1 be beaten at once. |
| Selection.Descente | jeu.c:465-496 | The descent from a node ends on a node without children that lies on or below it. It stays at the node exactly when the node has no children. |
| Selection.PremierNonVisiteChoisi | jeu.c:478-489 | When UCB1 scores stay below the sentinel, the descent picks the first unvisited child. |
| Selection.RatiosEnfants | jeu.c:514-516 | The ratio of each root child is wins / simulations. It is undefined (the 0/0 case) exactly when the child has no simulation, and otherwise lies between 0 and 1. |
| Selection.ChoixFinal | jeu.c:513-521 | The final choice, when there is one, names a child of the root that has been visited. |
| Selection.ChoixFinalAucun | jeu.c:513-521 | There is no final choice exactly when no child of the root has been visited. |
| Selection.ChoixFinalMeilleur | jeu.c:513-521 | The chosen child has a win ratio at least that of every visited child, and strictly greater than that of every visited child before it. |
| Mcts.PremierGagnant | jeu.c:335-350 | The scan for a winning move finds the first listed move whose play gives ORDI_GAGNE, or reports that none wins. |
| Mcts.ChoisirMeilleurCoupGagnant | jeu.c:331-362 | The chosen move is one of the listed moves. If some move wins at once, it is the first such move. Otherwise it is `coups[alea % k]`. |
| Mcts.ChoixGagnantSansHasard | jeu.c:331-362 | When a move wins at once, the choice does not depend on the random value, and it wins. |
| Mcts.CreationEnfants | jeu.c:367-386 | An unvisited node whose game is not over gets exactly one child. The child's move is the one `choisirMeilleurCoupGagnant` picks from the legal moves: the first winning move if there is one, else `coups[alea % k]`. The move is played successfully. Old nodes keep their simulations, wins and game states. Any other node leaves the tree unchanged. |
| Mcts.RecompenseSelonPlateau | jeu.c:413 | In board terms, the reward is 0 exactly when the first line of four in row-major order of its anchor is not the computer's. It is 1 otherwise, a draw or a computer line first included. |
| Mcts.CadreRetropropage | jeu.c:498-505 | If the expansion and the rollout keep every old node's statistics and every old node's state but the leaf's, then backpropagating from the leaf afterwards counts, on the old nodes, as backpropagating on the tree before the expansion. |
| Mcts.RetropropageRacine | jeu.c:415-425 | A backpropagation from a node gives that node and the root one more simulation each, and, from below the root, one root child as well. |
| Mcts.FinSimulation | jeu.c:411-427 | From the node up to the root, each node gains one simulation, and one win unless the human won in the node's state. Other nodes, the links and the game states do not change, and the tree stays valid. The node itself gains exactly one simulation, and the nodes after it are untouched. From a node other than the root, some child of the root gains exactly one visit. |
| Mcts.SimulerNoeud | jeu.c:391-406 | The rollout replaces the state of the node it runs on, and of no other node. No node's simulations or wins change, and the tree stays valid. |
| Mcts.Developper | jeu.c:498-502 | On the leaf the descent reached, expansion followed by the rollout adds one node exactly when the leaf is unvisited and its game goes on. The added node hangs below the leaf, belongs to the other player and has no simulation. Its move is the one `choisirMeilleurCoupGagnant` picks, and its state is that move played successfully on the leaf's state. The leaf's own state is played to the end. Every old node keeps its simulations and wins, and every other old node keeps its state. |
| Mcts.Etape | jeu.c:498-505 | Expansion, rollout and backpropagation on a leaf keep the tree valid. A node is added exactly when the leaf is unvisited and its game goes on; it hangs below the leaf, unvisited, belongs to the other player, and holds the move `choisirMeilleurCoupGagnant` picks, played successfully on the leaf's state. Each old node on the path from the leaf to the root gains one simulation, and as wins the reward of the leaf's played-out state (0 if the human won, else 1). Every other old node keeps its statistics, and every old node but the leaf keeps its state. The leaf's state is played to the end. When the leaf is not the root, a child of the root gains exactly one visit. |
| Mcts.Cycle | jeu.c:463-505 | One cycle keeps the tree valid and grows it. Old nodes keep their move, their parent and their children. On the leaf the descent reached, a node is added exactly when the leaf is unvisited and its game goes on; it hangs below the leaf, unvisited, belongs to the other player, and holds the move `choisirMeilleurCoupGagnant` picks, played successfully on the leaf's state. The leaf has its state played to the end. Every old node on the path from that leaf to the root gains one simulation, and as wins the reward of the leaf's played-out state. Every other old node keeps its statistics and its state. So the root gains exactly one simulation, and when it has children one of them gains exactly one visit. |
| Mcts.EtoileValide | jeu.c:441-451 | A root with only fresh leaves as its children, in index order, is a valid tree. |
| Mcts.Initialisation | jeu.c:441-451 | The initial tree holds the live state at an unvisited root, which has one fresh child per move, in the order of the moves. |
| Mcts.InitialisationEnfants | jeu.c:446-451 | In the initial tree, the k-th child of the root is the k-th move played on the root's state, with no statistics. |
| Mcts.ProlongeGardeRacine | jeu.c:463-511 | Growing the tree keeps the root's children, so the moves they stand for do not change. |
| Mcts.TraceEtendue | jeu.c:463-511 | A sequence of trees in which each is one step from the one before stays such a sequence when one more step is appended, and keeps its first tree. |
| Mcts.CycleFaitRacine | jeu.c:463-505 | Every cycle keeps the tree valid and grows it, gives the root one more simulation and, when the root has children, one of them exactly one more visit. |
| Mcts.EnfantRacineVisite | jeu.c:463-505 | When a cycle on a tree grown from t visits a root child, a child of t's root has been visited, since growing the tree keeps the root's children. |
| Mcts.RechercheAvance | jeu.c:463-511 | One more such cycle moves the search on: the tree stays valid and grown from the start, the root has one more simulation, and a root child has been visited. |
| Mcts.TraceRecherche | jeu.c:463-511 | After the first k steps of a sequence of such cycles from a valid tree, the tree is valid and grown from the start, the root has k more simulations, and, if k > 0 and the root has children, one of them has been visited. |
| Mcts.Chercher | jeu.c:463-511 | The search loop returns, besides the final tree, the trees after each cycle: the first is the input, the last is the result, and each one is exactly what a cycle (descent, expansion, rollout, backpropagation with its wins, as Mcts.Cycle states) with the matching random value makes of the one before. The tree stays valid and grows, and the root gains one simulation per cycle. After at least one cycle from a root with children, one of them has been visited. |
| Mcts.JouerChoixFinal | jeu.c:513-527 | Once a child of a root that has one child per legal move has been visited, the final choice picks a child, and the move played is that child's move. It is legal and its play succeeds. |
| Mcts.OrdiJoueMcts | jeu.c:431-532 | The computer plays the move of the root child the final choice picks from the searched tree. That tree is the last of a sequence that starts at the initial tree and in which each tree is what a cycle, wins included, makes of the one before. The move is legal and its play succeeds. The root has one simulation per cycle and one child per legal move. |

## Left out

- Console input and output, the game loop and `main` (jeu.c:78-126, 534-579) are left out, as are the `printf` lines of the driver (jeu.c:524-525). They are I/O.
- The clock (`clock()`, jeu.c:433-434, 509-511) is left out: the number of cycles is an input instead.
- `rand()` is left out: its values are inputs.
- The UCB1 formula with `sqrt` and `log` (jeu.c:485) is floating point. It is an abstract function, assumed non-negative where the source evaluates it.
- The final choice computes the win ratio in double precision. The model uses exact rationals, so two ratios that round to the same double are still told apart. A 0/0 NaN is modelled as a ratio that never wins.
- Memory handling is left out: `malloc`, `free`, `freeNoeud` (jeu.c:243-261), the leaked move arrays, and the `free` of the move still held by a new child (jeu.c:381). Values have no identity here, so `copieEtat` (jeu.c:41-59) is the identity and `nouveauCoup` (jeu.c:94-102) is a constructor.
- `etat_initial` (jeu.c:62-75) leaves `joueur` unset until `main` reads it. The model takes any integer `joueur`, and a move writes 'O' exactly when it is non-zero, as the source does.
- Integer overflow of the `int` counters `nb_simus` and `nb_victoires` is not modelled; the counters are unbounded.
- Mcts.Initialisation builds the initial tree in closed form: the root, then one fresh child per move. The source's loop of `ajouterEnfant` calls (jeu.c:446-451) gives the same tree, but the model does not replay that loop call by call.
- Mcts.OrdiJoueMcts requires a legal move to exist. Without one, the source plays an uninitialised move.

=== FILE: arbre.dfy ===
/**
 The search tree of jeu.c's Monte-Carlo tree search, kept in an arena: a sequence
 of node records in which a node's parent and children are indices. The root
 is node 0, and a node is always appended after its parent, so following the
 parent links from any node strictly decreases the index and reaches the root.
 */
module Arbre {
  import opened Regles

  /** Maximal number of children of a node (the size of the source's `enfants` array). */
  const LARGEUR_MAX: int := 9

  /**
   A node: the player who moved to reach it, the move that led to it (none at
   the root), its own copy of the game state, its parent and children, and
   the statistics of the search.
   */
  datatype Noeud = Noeud(
    joueur: int,
    coup: Option<Coup>,
    etat: Etat,
    parent: Option<nat>,
    enfants: seq<nat>,
    nb_victoires: int,
    nb_simus: int)

  type Arene = seq<Noeud>

  /** Every parent index is smaller than the index of its child. */
  predicate Chainee(t: Arene) {
    forall m :: 0 <= m < |t| && t[m].parent.Some? ==> t[m].parent.value < m
  }

  /**
   The shape of a tree rooted at 0: only the root lacks a parent, children
   lists and parent links agree, children are listed in increasing index
   order (the order they were added), and no node has more than LARGEUR_MAX.
   */
  predicate Structure(t: Arene) {
    && |t| > 0
    && t[0].parent == None
    && Chainee(t)
    && (forall m :: 0 < m < |t| ==> t[m].parent.Some? && m in t[t[m].parent.value].enfants)
    && (forall m, k :: 0 <= m < |t| && 0 <= k < |t[m].enfants| ==>
          m < t[m].enfants[k] < |t| && t[t[m].enfants[k]].parent == Some(m))
    && (forall m, k, l :: 0 <= m < |t| && 0 <= k < l < |t[m].enfants| ==> t[m].enfants[k] < t[m].enfants[l])
    && (forall m :: 0 <= m < |t| ==> |t[m].enfants| <= LARGEUR_MAX)
  }

  /**
   The statistics: wins never exceed simulations, and a node has been
   simulated at least as often as each of its children.
   */
  predicate Statistiques(t: Arene)
    requires Chainee(t)
  {
    && (forall m :: 0 <= m < |t| ==> 0 <= t[m].nb_victoires <= t[m].nb_simus)
    && (forall m :: 0 <= m < |t| && t[m].parent.Some? ==> t[m].nb_simus <= t[t[m].parent.value].nb_simus)
  }

  predicate Valide(t: Arene) {
    Structure(t) && Statistiques(t)
  }

  /** `t2` has the parent and children links of `t`. */
  predicate MemeStructure(t: Arene, t2: Arene) {
    |t2| == |t| && forall m :: 0 <= m < |t| ==> t2[m].parent == t[m].parent && t2[m].enfants == t[m].enfants
  }

  /**
   `t2` grows `t`: every old node keeps its move, its parent, its children if
   it had any, and has been simulated no fewer times; new nodes may follow.
   */
  predicate Prolonge(t: Arene, t2: Arene) {
    && |t| <= |t2|
    && forall m :: 0 <= m < |t| ==>
         && t2[m].coup == t[m].coup && t2[m].parent == t[m].parent
         && t2[m].nb_simus >= t[m].nb_simus
         && (t[m].enfants != [] ==> t2[m].enfants == t[m].enfants)
  }

  lemma ProlongeTransitif(t1: Arene, t2: Arene, t3: Arene)
    requires Prolonge(t1, t2) && Prolonge(t2, t3)
    ensures Prolonge(t1, t3)
  {
  }

  lemma MemeStructureStructure(t: Arene, t2: Arene)
    requires MemeStructure(t, t2)
    ensures Chainee(t) <==> Chainee(t2)
    ensures Structure(t) <==> Structure(t2)
  {
  }

  /** The root, built with `nouveauNoeud(NULL, NULL)` and given a copy of the live state. */
  function NouvelleRacine(e: Etat): Noeud {
    Noeud(0, None, CopieEtat(e), None, [], 0, 0)
  }

  /**
   The source's nouveauNoeud for a parent: a copy of the parent's state with
   the move played (its return code is ignored), the other player, no
   children and no statistics.
   */
  function NouveauNoeud(parent: Noeud, p: nat, c: Coup): Noeud
    requires CoupDansPlateau(c)
  {
    Noeud(1 - parent.joueur, Some(c), JouerCoup(CopieEtat(parent.etat), c).0, Some(p), [], 0, 0)
  }

  /** `t1` is `t` with a fresh leaf appended under `p`. */
  predicate EstAjout(t: Arene, p: nat, t1: Arene) {
    && p < |t| && |t1| == |t| + 1
    && (forall m :: 0 <= m < |t| && m != p ==> t1[m] == t[m])
    && t1[p] == t[p].(enfants := t[p].enfants + [|t|])
    && t1[|t|].parent == Some(p) && t1[|t|].enfants == []
    && t1[|t|].nb_simus == 0 && t1[|t|].nb_victoires == 0
  }

  lemma AjoutChaine(t: Arene, p: nat, t1: Arene)
    requires Valide(t) && EstAjout(t, p, t1)
    ensures Chainee(t1) && t1[0].parent == None
    ensures forall m :: 0 < m < |t1| ==> t1[m].parent.Some? && m in t1[t1[m].parent.value].enfants
  {
    assert forall m :: 0 <= m < |t| ==> t1[m].parent == t[m].parent;
    forall m | 0 < m < |t1| ensures t1[m].parent.Some? && m in t1[t1[m].parent.value].enfants {
      if m < |t| {
        var q := t[m].parent.value;
        assert m in t[q].enfants;
        if q == p {
          assert t1[q].enfants == t[q].enfants + [|t|];
        }
      } else {
        assert t1[p].enfants[|t[p].enfants|] == m;
      }
    }
  }

  lemma AjoutEnfants(t: Arene, p: nat, t1: Arene)
    requires Valide(t) && EstAjout(t, p, t1)
    ensures forall m, k :: 0 <= m < |t1| && 0 <= k < |t1[m].enfants| ==>
              m < t1[m].enfants[k] < |t1| && t1[t1[m].enfants[k]].parent == Some(m)
    ensures forall m, k, l :: 0 <= m < |t1| && 0 <= k < l < |t1[m].enfants| ==>
              t1[m].enfants[k] < t1[m].enfants[l]
  {
    forall m, k | 0 <= m < |t1| && 0 <= k < |t1[m].enfants|
      ensures m < t1[m].enfants[k] < |t1| && t1[t1[m].enfants[k]].parent == Some(m)
    {
      if m == p && k == |t[p].enfants| {
        assert t1[m].enfants[k] == |t|;
      } else {
        assert m < |t| && t1[m].enfants[k] == t[m].enfants[k];
      }
    }
    forall m, k, l | 0 <= m < |t1| && 0 <= k < l < |t1[m].enfants|
      ensures t1[m].enfants[k] < t1[m].enfants[l]
    {
      if m == p && l == |t[p].enfants| {
        assert t1[m].enfants[k] == t[m].enfants[k] < |t|;
      } else {
        assert m < |t| && t1[m].enfants[k] == t[m].enfants[k] && t1[m].enfants[l] == t[m].enfants[l];
      }
    }
  }

  lemma AjoutStatistiques(t: Arene, p: nat, t1: Arene)
    requires Valide(t) && EstAjout(t, p, t1) && Chainee(t1)
    ensures Statistiques(t1)
  {
  }

  /** Appending the first child of a node only grows the tree. */
  lemma AjoutProlonge(t: Arene, p: nat, t1: Arene)
    requires EstAjout(t, p, t1) && t[p].enfants == []
    ensures Prolonge(t, t1)
  {
  }

  /** Appending a fresh leaf under a node with room for one more child keeps a tree well formed. */
  lemma AjoutValide(t: Arene, p: nat, t1: Arene)
    requires Valide(t) && EstAjout(t, p, t1)
    requires |t[p].enfants| < LARGEUR_MAX
    ensures Valide(t1)
  {
    AjoutChaine(t, p, t1);
    AjoutEnfants(t, p, t1);
    AjoutStatistiques(t, p, t1);
    assert forall m :: 0 <= m < |t1| ==> |t1[m].enfants| <= LARGEUR_MAX;
  }

  /**
   The source's ajouterEnfant: appends the new node to the arena and to the
   end of the parent's children. Returns the arena and the child's index.
   */
  function AjouterEnfant(t: Arene, p: nat, c: Coup): (r: (Arene, nat))
    requires Valide(t) && p < |t|
    requires |t[p].enfants| < LARGEUR_MAX
    requires CoupDansPlateau(c)
    ensures Valide(r.0)
    ensures |r.0| == |t| + 1 && r.1 == |t|
    ensures r.0[p].enfants == t[p].enfants + [r.1]
    ensures r.0[p] == t[p].(enfants := r.0[p].enfants)
    ensures forall m :: 0 <= m < |t| && m != p ==> r.0[m] == t[m]
    ensures t[p].enfants == [] ==> Prolonge(t, r.0)
    ensures forall m :: 0 <= m < |t| ==> r.0[m].nb_simus == t[m].nb_simus
    ensures var enfant := r.0[r.1];
            && enfant.nb_simus == 0 && enfant.nb_victoires == 0
            && enfant.parent == Some(p) && enfant.enfants == []
            && enfant.joueur == 1 - t[p].joueur
            && enfant.coup == Some(c)
            && enfant.etat == JouerCoup(t[p].etat, c).0
  {
    var enfant := NouveauNoeud(t[p], p, c);
    var t1 := t[p := t[p].(enfants := t[p].enfants + [|t|])] + [enfant];
    AjoutValide(t, p, t1);
    if t[p].enfants == [] then
      AjoutProlonge(t, p, t1);
      (t1, |t|)
    else (t1, |t|)
  }

  // ---------------------------------------------------------------- the path to the root

  /** `m` is `n` itself or one of its ancestors. */
  predicate SurChemin(t: Arene, n: nat, m: nat)
    decreases n
  {
    && n < |t|
    && (|| n == m
        || (t[n].parent.Some? && t[n].parent.value < n && SurChemin(t, t[n].parent.value, m)))
  }

  /** A node on the path from `n` has an index at most `n`. */
  lemma {:induction false} SurCheminBorne(t: Arene, n: nat, m: nat)
    requires SurChemin(t, n, m)
    ensures m <= n
    decreases n
  {
    if n != m {
      SurCheminBorne(t, t[n].parent.value, m);
    }
  }

  /** The path depends only on the parent links. */
  lemma {:induction false} SurCheminMemesParents(t: Arene, t2: Arene, n: nat, m: nat)
    requires |t2| == |t|
    requires forall x :: 0 <= x < |t| ==> t2[x].parent == t[x].parent
    ensures SurChemin(t, n, m) <==> SurChemin(t2, n, m)
    decreases n
  {
    if n < |t| && n != m && t[n].parent.Some? && t[n].parent.value < n {
      SurCheminMemesParents(t, t2, t[n].parent.value, m);
    }
  }

  /** Growing the arena without changing the old parent links keeps the paths from old nodes. */
  lemma {:induction false} SurCheminPrefixe(t: Arene, t2: Arene, n: nat, m: nat)
    requires |t| <= |t2| && n < |t|
    requires forall x :: 0 <= x < |t| ==> t2[x].parent == t[x].parent
    ensures SurChemin(t, n, m) <==> SurChemin(t2, n, m)
    decreases n
  {
    if n != m && t[n].parent.Some? && t[n].parent.value < n {
      SurCheminPrefixe(t, t2, t[n].parent.value, m);
    }
  }

  /** The path is closed upwards: the parent of a node on it is on it too. */
  lemma {:induction false} SurCheminParent(t: Arene, n: nat, m: nat)
    requires Chainee(t)
    requires m < |t| && SurChemin(t, n, m) && t[m].parent.Some?
    ensures SurChemin(t, n, t[m].parent.value)
    decreases n
  {
    if n != m {
      SurCheminParent(t, t[n].parent.value, m);
    }
  }

  /** In a tree, the path from any node reaches the root. */
  lemma {:induction false} SurCheminRacine(t: Arene, n: nat)
    requires Structure(t) && n < |t|
    ensures SurChemin(t, n, 0)
    decreases n
  {
    if n != 0 {
      SurCheminRacine(t, t[n].parent.value);
    }
  }

  /** Below the root, the path from any node passes through a child of the root. */
  lemma {:induction false} CheminParEnfantRacine(t: Arene, n: nat)
    requires Structure(t) && 0 < n < |t|
    ensures exists k :: 0 <= k < |t[0].enfants| && SurChemin(t, n, t[0].enfants[k])
    decreases n
  {
    var p := t[n].parent.value;
    if p == 0 {
      var k :| 0 <= k < |t[0].enfants| && t[0].enfants[k] == n;
      assert SurChemin(t, n, t[0].enfants[k]);
    } else {
      CheminParEnfantRacine(t, p);
      var k :| 0 <= k < |t[0].enfants| && SurChemin(t, p, t[0].enfants[k]);
      assert SurChemin(t, n, t[0].enfants[k]);
    }
  }

  /** Replacing the game state of a node keeps a tree well formed. */
  lemma EtatRemplaceValide(t: Arene, n: nat, e: Etat)
    requires Valide(t) && n < |t|
    ensures MemeStructure(t, t[n := t[n].(etat := e)])
    ensures Prolonge(t, t[n := t[n].(etat := e)])
    ensures Valide(t[n := t[n].(etat := e)])
  {
    var t2 := t[n := t[n].(etat := e)];
    assert forall m :: 0 <= m < |t| ==> t2[m] == t[m].(etat := t2[m].etat);
    MemeStructureStructure(t, t2);
  }

  /** The statistics of a node after one more simulation with reward `v`. */
  function Visite(nd: Noeud, v: int): Noeud {
    nd.(nb_simus := nd.nb_simus + 1, nb_victoires := nd.nb_victoires + v)
  }

  /**
   The loop of the source's fin_simulation: from `n` up to the root, each node
   gains one simulation and `v` wins; the nodes off that path do not change.
   */
  function Remonter(t: Arene, n: nat, v: int): (t2: Arene)
    requires Chainee(t) && n < |t|
    ensures |t2| == |t|
    ensures forall m :: 0 <= m < |t| ==> t2[m] == (if SurChemin(t, n, m) then Visite(t[m], v) else t[m])
    decreases n
  {
    var t1 := t[n := Visite(t[n], v)];
    assert forall x :: 0 <= x < |t| ==> t1[x].parent == t[x].parent;
    match t[n].parent
    case None => t1
    case Some(p) =>
      var t2 := Remonter(t1, p, v);
      assert forall m :: 0 <= m < |t| ==> (SurChemin(t1, p, m) <==> SurChemin(t, p, m)) by {
        forall m | 0 <= m < |t| ensures SurChemin(t1, p, m) <==> SurChemin(t, p, m) {
          SurCheminMemesParents(t, t1, p, m);
        }
      }
      assert !SurChemin(t, p, n) by {
        if SurChemin(t, p, n) { SurCheminBorne(t, p, n); }
      }
      t2
  }

  /**
   Visiting a set of nodes closed upwards, given by the flags `sur`, keeps a
   tree well formed when the reward is 0 or 1: the links do not move, wins
   stay within simulations, and a parent keeps at least as many simulations
   as each child.
   */
  lemma VisiteValide(t: Arene, t2: Arene, sur: seq<bool>, v: int)
    requires Valide(t) && (v == 0 || v == 1)
    requires |sur| == |t| && |t2| == |t|
    requires forall m :: 0 <= m < |t| && t[m].parent.Some? && sur[m] ==> sur[t[m].parent.value]
    requires forall m :: 0 <= m < |t| ==> t2[m] == (if sur[m] then Visite(t[m], v) else t[m])
    ensures MemeStructure(t, t2) && Valide(t2)
    ensures Prolonge(t, t2) && forall m :: 0 <= m < |t| ==> t2[m].etat == t[m].etat
  {
    assert MemeStructure(t, t2);
    MemeStructureStructure(t, t2);
    forall m | 0 <= m < |t| ensures 0 <= t2[m].nb_victoires <= t2[m].nb_simus {
      assert t2[m] == (if sur[m] then Visite(t[m], v) else t[m]);
    }
    forall m | 0 <= m < |t| && t2[m].parent.Some?
      ensures t2[m].nb_simus <= t2[t2[m].parent.value].nb_simus
    {
      var p := t[m].parent.value;
      assert t2[m] == (if sur[m] then Visite(t[m], v) else t[m]);
      assert t2[p] == (if sur[p] then Visite(t[p], v) else t[p]);
    }
  }

  /**
   Backpropagation keeps the tree well formed when the reward is 0 or 1,
   because the path it visits is closed upwards.
   */
  lemma RemonterValide(t: Arene, n: nat, v: int)
    requires Valide(t) && n < |t|
    requires v == 0 || v == 1
    ensures MemeStructure(t, Remonter(t, n, v))
    ensures Valide(Remonter(t, n, v))
    ensures Prolonge(t, Remonter(t, n, v))
    ensures forall m :: 0 <= m < |t| ==> Remonter(t, n, v)[m].etat == t[m].etat
  {
    var sur := seq(|t|, m requires 0 <= m < |t| => SurChemin(t, n, m));
    forall m | 0 <= m < |t| && t[m].parent.Some? && sur[m]
      ensures sur[t[m].parent.value]
    {
      SurCheminParent(t, n, m);
    }
    VisiteValide(t, Remonter(t, n, v), sur, v);
  }
}

=== FILE: fin.dfy ===
/**
 End-of-game test of jeu.c (its `testFin`): the scan of the board for four
 equal stones in a row, and the draw test on a full board.

 The scan visits the cells in row-major order and, at each non-blank cell,
 looks for a line that the cell anchors: to the right, downwards, down-right,
 and up-right. The first anchored line found decides the winner, by the
 stone in its anchor cell. In normal play at most one player owns a line,
 but after one round of the rollout both players may own one, so the order
 of the scan matters.
 */
module Fin {
  import opened Regles

  datatype FinDePartie = Non | MatchNul | OrdiGagne | HumainGagne {
    predicate Gagne() {
      this == OrdiGagne || this == HumainGagne
    }
  }

  /** The winner named by the stone of a line: `'O'` is the computer. */
  function Vainqueur(pion: char): FinDePartie {
    if pion == 'O' then OrdiGagne else HumainGagne
  }

  /**
   Four equal non-blank cells starting at (i, j) and stepping by (di, dj),
   one of the eight directions of the board.
   */
  predicate Aligne(b: Plateau, i: int, j: int, di: int, dj: int) {
    && -1 <= di <= 1 && -1 <= dj <= 1 && (di != 0 || dj != 0)
    && DansPlateau(i, j) && DansPlateau(i + 3 * di, j + 3 * dj)
    && Case(b, i, j) != VIDE
    && Case(b, i + di, j + dj) == Case(b, i, j)
    && Case(b, i + 2 * di, j + 2 * dj) == Case(b, i, j)
    && Case(b, i + 3 * di, j + 3 * dj) == Case(b, i, j)
  }

  /** Some line of four of the stone `pion` on the board. */
  ghost predicate LigneDe(b: Plateau, pion: char) {
    exists i, j, di, dj :: Aligne(b, i, j, di, dj) && Case(b, i, j) == pion
  }

  /** Four in a row anywhere on the board, in any direction. */
  ghost predicate Puissance4(b: Plateau) {
    exists i, j, di, dj :: Aligne(b, i, j, di, dj)
  }

  /**
   The test the scan makes at cell (i, j): the cell is non-blank and the three
   next cells to the right, below, down-right or up-right repeat it, each
   direction tried only where it stays on the board.
   */
  predicate Ancre(b: Plateau, i: int, j: int)
    requires DansPlateau(i, j)
  {
    var c := Case(b, i, j);
    && c != VIDE
    && (|| (j <= NB_COLONNES - NB_COUPS_GAGNANT
            && c == Case(b, i, j + 1) && c == Case(b, i, j + 2) && c == Case(b, i, j + 3))
        || (i <= NB_LIGNES - NB_COUPS_GAGNANT
            && c == Case(b, i + 1, j) && c == Case(b, i + 2, j) && c == Case(b, i + 3, j))
        || (i <= NB_LIGNES - NB_COUPS_GAGNANT && j <= NB_COLONNES - NB_COUPS_GAGNANT
            && c == Case(b, i + 1, j + 1) && c == Case(b, i + 2, j + 2) && c == Case(b, i + 3, j + 3))
        || (i >= 3 && j <= NB_COLONNES - NB_COUPS_GAGNANT
            && c == Case(b, i - 1, j + 1) && c == Case(b, i - 2, j + 2) && c == Case(b, i - 3, j + 3)))
  }

  /** Cell (i1, j1) comes strictly before cell (i2, j2) in row-major order. */
  predicate Avant(i1: int, j1: int, i2: int, j2: int) {
    i1 < i2 || (i1 == i2 && j1 < j2)
  }

  /** Some cell at or after (i, j) in row-major order anchors a line. */
  ghost predicate AncreDes(b: Plateau, i: int, j: int) {
    exists i', j' :: DansPlateau(i', j') && !Avant(i', j', i, j) && Ancre(b, i', j')
  }

  /** (i', j') is the first anchor at or after (i, j) in row-major order. */
  ghost predicate PremiereAncreDes(b: Plateau, i: int, j: int, i': int, j': int) {
    && DansPlateau(i', j') && !Avant(i', j', i, j) && Ancre(b, i', j')
    && forall i'', j'' :: DansPlateau(i'', j'') && !Avant(i'', j'', i, j) && Avant(i'', j'', i', j') ==>
                          !Ancre(b, i'', j'')
  }

  /**
   One step of the scan, from (i, j) to the next cell (i2, j2): the anchors at
   or after (i, j) are the one at (i, j), if any, and those at or after (i2, j2).
   */
  lemma PasDuBalayage(b: Plateau, i: int, j: int, i2: int, j2: int)
    requires DansPlateau(i, j)
    requires if j == NB_COLONNES - 1 then i2 == i + 1 && j2 == 0 else i2 == i && j2 == j + 1
    ensures AncreDes(b, i, j) <==> Ancre(b, i, j) || AncreDes(b, i2, j2)
    ensures Ancre(b, i, j) ==> PremiereAncreDes(b, i, j, i, j)
    ensures !Ancre(b, i, j) ==>
              forall i', j' :: PremiereAncreDes(b, i2, j2, i', j') ==> PremiereAncreDes(b, i, j, i', j')
  {
    assert forall x, y :: DansPlateau(x, y) ==> (!Avant(x, y, i, j) <==> (x == i && y == j) || !Avant(x, y, i2, j2));
  }

  /**
   The two nested loops of the test, resumed at cell (i, j) with `k` the
   number of non-blank cells already passed. What the scan finds is stated
   by BalayerCorrect.
   */
  function Balayer(b: Plateau, i: int, j: int, k: nat): FinDePartie
    requires 0 <= i <= NB_LIGNES && 0 <= j < NB_COLONNES && (i == NB_LIGNES ==> j == 0)
    requires k == Occupees(b[..i * NB_COLONNES + j])
    decreases NB_LIGNES - i, NB_COLONNES - j
  {
    if i == NB_LIGNES then
      if k == NB_CASES then MatchNul else Non
    else
      var c := Case(b, i, j);
      if c != VIDE && Ancre(b, i, j) then
        Vainqueur(c)
      else
        var p := i * NB_COLONNES + j;
        var i2 := if j == NB_COLONNES - 1 then i + 1 else i;
        var j2 := if j == NB_COLONNES - 1 then 0 else j + 1;
        assert b[..p + 1][..p] == b[..p];
        Balayer(b, i2, j2, k + (if c != VIDE then 1 else 0))
  }

  /**
   The scan from (i, j) reports a win exactly when a cell at or after (i, j)
   anchors a line, for the stone of the first such anchor; otherwise a draw
   exactly when no cell is blank, and NON when one is.
   */
  lemma {:induction false} BalayerCorrect(b: Plateau, i: int, j: int, k: nat)
    requires 0 <= i <= NB_LIGNES && 0 <= j < NB_COLONNES && (i == NB_LIGNES ==> j == 0)
    requires k == Occupees(b[..i * NB_COLONNES + j])
    ensures var r := Balayer(b, i, j, k);
            && (r.Gagne() <==> AncreDes(b, i, j))
            && (r.Gagne() ==> exists i', j' :: PremiereAncreDes(b, i, j, i', j') && r == Vainqueur(Case(b, i', j')))
            && (r == MatchNul <==> !AncreDes(b, i, j) && Occupees(b) == NB_CASES)
            && (r == Non <==> !AncreDes(b, i, j) && Occupees(b) < NB_CASES)
    decreases NB_LIGNES - i, NB_COLONNES - j
  {
    if i == NB_LIGNES {
      assert b[..NB_CASES] == b;
    } else {
      var i2 := if j == NB_COLONNES - 1 then i + 1 else i;
      var j2 := if j == NB_COLONNES - 1 then 0 else j + 1;
      PasDuBalayage(b, i, j, i2, j2);
      var c := Case(b, i, j);
      if !(c != VIDE && Ancre(b, i, j)) {
        var p := i * NB_COLONNES + j;
        assert b[..p + 1][..p] == b[..p];
        assert i2 * NB_COLONNES + j2 == p + 1;
        BalayerCorrect(b, i2, j2, k + (if c != VIDE then 1 else 0));
      }
    }
  }

  /** The anchors found by the scan are exactly the lines of the board. */
  lemma AncresSsiPuissance4(b: Plateau)
    ensures AncreDes(b, 0, 0) <==> Puissance4(b)
  {
    if AncreDes(b, 0, 0) {
      var i, j :| DansPlateau(i, j) && Ancre(b, i, j);
      AncreAligne(b, i, j);
    }
    if Puissance4(b) {
      var i, j, di, dj :| Aligne(b, i, j, di, dj);
      AligneAncre(b, i, j, di, dj);
    }
  }

  /** An anchor is the first cell of a line in one of four directions, of the anchor's stone. */
  lemma AncreAligne(b: Plateau, i: int, j: int)
    requires DansPlateau(i, j) && Ancre(b, i, j)
    ensures exists di, dj :: Aligne(b, i, j, di, dj)
    ensures LigneDe(b, Case(b, i, j))
  {
    var c := Case(b, i, j);
    if j <= 3 && c == Case(b, i, j + 1) && c == Case(b, i, j + 2) && c == Case(b, i, j + 3) {
      assert Aligne(b, i, j, 0, 1);
    } else if i <= 2 && c == Case(b, i + 1, j) && c == Case(b, i + 2, j) && c == Case(b, i + 3, j) {
      assert Aligne(b, i, j, 1, 0);
    } else if i <= 2 && j <= 3 && c == Case(b, i + 1, j + 1) && c == Case(b, i + 2, j + 2) && c == Case(b, i + 3, j + 3) {
      assert Aligne(b, i, j, 1, 1);
    } else {
      assert Aligne(b, i, j, -1, 1);
    }
  }

  /** Every line, in any of the eight directions, has an anchor at one of its ends. */
  lemma AligneAncre(b: Plateau, i: int, j: int, di: int, dj: int)
    requires Aligne(b, i, j, di, dj)
    ensures exists i', j' :: DansPlateau(i', j') && Ancre(b, i', j') && Case(b, i', j') == Case(b, i, j)
  {
    if (di == 0 && dj == 1) || (di == 1 && dj == 0) || (di == 1 && dj == 1) || (di == -1 && dj == 1) {
      assert Ancre(b, i, j);
    } else {
      // The reversed direction: the line is anchored at its other end.
      assert Ancre(b, i + 3 * di, j + 3 * dj);
    }
  }

  /** The source's testFin; what it reports is stated by TestFinCorrect. */
  function TestFin(e: Etat): FinDePartie {
    Balayer(e.plateau, 0, 0, 0)
  }

  /**
   The test reports a win exactly when four in a row exist, for the stone of
   the first anchored line in scan order, and a computer win only when 'O'
   has a line; a draw exactly when there is no line and no blank cell;
   otherwise the game goes on.
   */
  lemma TestFinCorrect(e: Etat)
    ensures var r := TestFin(e);
            && (r.Gagne() <==> Puissance4(e.plateau))
            && (r == MatchNul <==> !Puissance4(e.plateau) && Plein(e.plateau))
            && (r == Non <==> !Puissance4(e.plateau) && !Plein(e.plateau))
            && (r == OrdiGagne ==> LigneDe(e.plateau, 'O'))
            && (r == HumainGagne ==> exists pion :: pion != 'O' && LigneDe(e.plateau, pion))
            && (r.Gagne() ==> exists i, j :: PremiereAncreDes(e.plateau, 0, 0, i, j) && r == Vainqueur(Case(e.plateau, i, j)))
  {
    var b := e.plateau;
    AncresSsiPuissance4(b);
    PleinSsiOccupees(b);
    BalayerCorrect(b, 0, 0, 0);
    var r := TestFin(e);
    if r.Gagne() {
      var i, j :| PremiereAncreDes(b, 0, 0, i, j) && r == Vainqueur(Case(b, i, j));
      AncreAligne(b, i, j);
    }
  }

  /**
   When both players own a line, the line anchored first in row-major order
   decides: here the human's row 0 beats the computer's row 1.
   */
  lemma OrdreDuBalayage()
    ensures var b: Plateau := seq(NB_CASES, p => if p < 4 then 'X' else if 7 <= p < 11 then 'O' else VIDE);
            && LigneDe(b, 'O')
            && TestFin(Etat(0, b)) == HumainGagne
  {
    var b: Plateau := seq(NB_CASES, p => if p < 4 then 'X' else if 7 <= p < 11 then 'O' else VIDE);
    assert Aligne(b, 1, 0, 0, 1);
    assert Ancre(b, 0, 0);
    var r := TestFin(Etat(0, b));
    TestFinCorrect(Etat(0, b));
    var i, j :| PremiereAncreDes(b, 0, 0, i, j) && r == Vainqueur(Case(b, i, j));
    assert i == 0 && j == 0;
  }
}

=== FILE: mcts.dfy ===
/**
 The Monte-Carlo tree search of jeu.c's computer player: the biased expansion
 (a move that wins at once, else a random legal move), the rollout on the
 selected leaf, backpropagation of a single-perspective reward, one full
 cycle, and the driver that builds the root with one child per legal move,
 runs the cycles and plays the root child of best win ratio.

 Randomness is an input: each cycle receives the value `rand()` would have
 returned (it is used only when the cycle expands a node and no move wins at
 once). The wall-clock budget becomes the number of cycles, one per random
 value, and at least one, as the source's `do ... while` loop always runs once.
 */
module Mcts {
  import opened Regles
  import opened Fin
  import opened Arbre
  import opened Rollout
  import opened Selection

  /** Playing `c` on a copy of `e` ends the game with a computer win. */
  predicate Gagnant(e: Etat, c: Coup)
    requires CoupDansPlateau(c)
  {
    TestFin(JouerCoup(CopieEtat(e), c).0) == OrdiGagne
  }

  /** Some listed move wins at once. */
  predicate UnCoupGagne(e: Etat, coups: seq<Coup>)
    requires CoupsDansPlateau(coups)
  {
    exists k :: 0 <= k < |coups| && Gagnant(e, coups[k])
  }

  /** The scan for a winning move, from index `i`: the first one, if any. */
  function PremierGagnant(e: Etat, coups: seq<Coup>, i: nat): (r: Option<nat>)
    requires CoupsDansPlateau(coups) && i <= |coups|
    ensures r.Some? ==>
              && i <= r.value < |coups| && Gagnant(e, coups[r.value])
              && forall k :: i <= k < r.value ==> !Gagnant(e, coups[k])
    ensures r.None? ==> forall k :: i <= k < |coups| ==> !Gagnant(e, coups[k])
    decreases |coups| - i
  {
    if i == |coups| then None
    else if Gagnant(e, coups[i]) then Some(i)
    else PremierGagnant(e, coups, i + 1)
  }

  /**
   The source's choisirMeilleurCoupGagnant: the first listed move that wins at
   once for the computer, else the move `coups[alea % k]` for the random value
   `alea`. With no move at all the source divides by zero.
   */
  function ChoisirMeilleurCoupGagnant(coups: seq<Coup>, noeud: Noeud, alea: nat): (c: Coup)
    requires CoupsDansPlateau(coups) && |coups| > 0
    ensures c in coups
    ensures UnCoupGagne(noeud.etat, coups) ==>
              exists k :: 0 <= k < |coups| && c == coups[k] && Gagnant(noeud.etat, c)
                          && forall l :: 0 <= l < k ==> !Gagnant(noeud.etat, coups[l])
    ensures !UnCoupGagne(noeud.etat, coups) ==> c == coups[alea % |coups|]
  {
    match PremierGagnant(noeud.etat, coups, 0)
    case Some(k) => coups[k]
    case None => coups[alea % |coups|]
  }

  /** A winning move is chosen whatever the random value. */
  lemma ChoixGagnantSansHasard(coups: seq<Coup>, noeud: Noeud, a1: nat, a2: nat)
    requires CoupsDansPlateau(coups) && |coups| > 0
    requires UnCoupGagne(noeud.etat, coups)
    ensures ChoisirMeilleurCoupGagnant(coups, noeud, a1) == ChoisirMeilleurCoupGagnant(coups, noeud, a2)
    ensures Gagnant(noeud.etat, ChoisirMeilleurCoupGagnant(coups, noeud, a1))
  {
  }

  /** The condition under which the source expands a node: unvisited and not finished. */
  predicate AEtendre(nd: Noeud) {
    nd.nb_simus == 0 && TestFin(nd.etat) == Non
  }

  /**
   The move the expansion adds under a node it expands: the one
   choisirMeilleurCoupGagnant picks among the node's legal moves, of which
   there is at least one since the game is not over.
   */
  function CoupChoisi(nd: Noeud, alea: nat): (c: Coup)
    requires AEtendre(nd)
    ensures c in CoupsPossibles(nd.etat)
  {
    EnCoursJouable(nd.etat);
    ChoisirMeilleurCoupGagnant(CoupsPossibles(nd.etat), nd, alea)
  }

  /**
   Every node of `t` keeps its simulations and wins in `t2`, and every node
   but `f` keeps its game state.
   */
  predicate CadreHors(t: Arene, t2: Arene, f: nat) {
    && |t| <= |t2|
    && forall m :: 0 <= m < |t| ==>
         && t2[m].nb_simus == t[m].nb_simus && t2[m].nb_victoires == t[m].nb_victoires
         && (m != f ==> t2[m].etat == t[m].etat)
  }

  lemma CadreHorsTransitif(t: Arene, t1: Arene, t2: Arene, f: nat)
    requires CadreHors(t, t1, f) && CadreHors(t1, t2, f)
    ensures CadreHors(t, t2, f)
  {
  }

  /**
   The source's creation_enfants: an unvisited node whose game is not over
   gets exactly one child, for the move chosen among its legal moves; any
   other node is left as it is.
   */
  method CreationEnfants(t: Arene, n: nat, alea: nat) returns (t2: Arene)
    requires Valide(t) && n < |t|
    requires AEtendre(t[n]) ==> |t[n].enfants| < LARGEUR_MAX
    ensures Valide(t2) && |t| <= |t2| && t2[n].etat == t[n].etat
    ensures t[n].enfants == [] ==> Prolonge(t, t2)
    ensures CadreHors(t, t2, n)
    ensures !AEtendre(t[n]) ==> t2 == t
    ensures AEtendre(t[n]) ==>
              && |t2| == |t| + 1
              && t2[n] == t[n].(enfants := t[n].enfants + [|t|])
              && (forall m :: 0 <= m < |t| && m != n ==> t2[m] == t[m])
              && t2[|t|].parent == Some(n) && t2[|t|].enfants == []
              && t2[|t|].nb_simus == 0 && t2[|t|].nb_victoires == 0
              && t2[|t|].joueur == 1 - t[n].joueur
              && t2[|t|].coup == Some(CoupChoisi(t[n], alea))
              && t2[|t|].coup.value in CoupsPossibles(t[n].etat)
              && JouerCoup(t[n].etat, t2[|t|].coup.value) == (t2[|t|].etat, 1)
              && (UnCoupGagne(t[n].etat, CoupsPossibles(t[n].etat)) ==> Gagnant(t[n].etat, t2[|t|].coup.value))
  {
    var coups := CoupsPossibles(t[n].etat);
    if AEtendre(t[n]) {
      var c := CoupChoisi(t[n], alea);
      EnCoursJouable(t[n].etat);
      t2 := AjouterEnfant(t, n, c).0;
    } else {
      t2 := t;
    }
  }

  /** The reward of a finished rollout: 0 when the human won, else 1 (a draw counts as a win). */
  function Recompense(e: Etat): (v: int)
    ensures v == 0 <==> TestFin(e) == HumainGagne
    ensures v == 0 || v == 1
  {
    if TestFin(e) == HumainGagne then 0 else 1
  }

  /** Two first anchors from the same cell are the same cell. */
  lemma PremiereAncreUnique(b: Plateau, i1: int, j1: int, i2: int, j2: int)
    requires PremiereAncreDes(b, 0, 0, i1, j1) && PremiereAncreDes(b, 0, 0, i2, j2)
    ensures i1 == i2 && j1 == j2
  {
  }

  /**
   In board terms, a playout scores nothing exactly when the first line the
   scan meets, in row-major order of its anchor, is not the computer's.
   */
  lemma RecompenseSelonPlateau(e: Etat)
    ensures Recompense(e) == 0 <==>
            exists i, j :: PremiereAncreDes(e.plateau, 0, 0, i, j) && Case(e.plateau, i, j) != 'O'
  {
    var b := e.plateau;
    TestFinCorrect(e);
    if exists i, j :: PremiereAncreDes(b, 0, 0, i, j) && Case(b, i, j) != 'O' {
      var i, j :| PremiereAncreDes(b, 0, 0, i, j) && Case(b, i, j) != 'O';
      AncresSsiPuissance4(b);
      var i2, j2 :| PremiereAncreDes(b, 0, 0, i2, j2) && TestFin(e) == Vainqueur(Case(b, i2, j2));
      PremiereAncreUnique(b, i, j, i2, j2);
    }
  }

  /**
   Backpropagation from `f` with reward `v`, seen from the nodes of `t`: each
   node on the path from `f` to the root gains one simulation and `v` wins,
   every other node keeps its statistics, and every node but `f` keeps its
   game state.
   */
  predicate Retropropage(t: Arene, t2: Arene, f: nat, v: int) {
    && |t| <= |t2|
    && forall m :: 0 <= m < |t| ==>
         && t2[m].nb_simus == t[m].nb_simus + (if SurChemin(t, f, m) then 1 else 0)
         && t2[m].nb_victoires == t[m].nb_victoires + (if SurChemin(t, f, m) then v else 0)
         && (m != f ==> t2[m].etat == t[m].etat)
  }

  /** A frame on the old nodes followed by a backpropagation from one of them is that backpropagation. */
  lemma CadreRetropropage(t: Arene, t1: Arene, t2: Arene, f: nat, v: int)
    requires f < |t| && CadreHors(t, t1, f) && Retropropage(t1, t2, f, v)
    requires forall m :: 0 <= m < |t| ==> t1[m].parent == t[m].parent
    ensures Retropropage(t, t2, f, v)
  {
    forall m | 0 <= m < |t| ensures SurChemin(t, f, m) <==> SurChemin(t1, f, m) {
      SurCheminPrefixe(t, t1, f, m);
    }
  }

  /**
   A backpropagation from `f` gives `f` and the root one more simulation
   each, and, from a node below the root, one root child as well.
   */
  lemma RetropropageRacine(t: Arene, t2: Arene, f: nat, v: int)
    requires Structure(t) && f < |t| && Retropropage(t, t2, f, v)
    ensures t2[f].nb_simus == t[f].nb_simus + 1
    ensures t2[0].nb_simus == t[0].nb_simus + 1
    ensures f > 0 ==>
              exists k :: 0 <= k < |t[0].enfants| && t2[t[0].enfants[k]].nb_simus == t[t[0].enfants[k]].nb_simus + 1
  {
    assert SurChemin(t, f, f);
    SurCheminRacine(t, f);
    if f > 0 {
      CheminParEnfantRacine(t, f);
      var k :| 0 <= k < |t[0].enfants| && SurChemin(t, f, t[0].enfants[k]);
      assert t2[t[0].enfants[k]].nb_simus == t[t[0].enfants[k]].nb_simus + 1;
    }
  }

  /**
   The source's fin_simulation: every node from `n` up to the root gains one
   simulation, and one win unless the human won in `n`'s state; the other
   nodes, the links of the tree and the game states do not change. From a
   node below the root, the path passes through a child of the root.
   */
  method FinSimulation(t: Arene, n: nat) returns (t2: Arene)
    requires Valide(t) && n < |t|
    ensures Valide(t2) && MemeStructure(t, t2) && Prolonge(t, t2)
    ensures forall m :: 0 <= m < |t| ==> t2[m].etat == t[m].etat
    ensures forall m :: 0 <= m < |t| && !SurChemin(t, n, m) ==> t2[m] == t[m]
    ensures forall m :: 0 <= m < |t| && SurChemin(t, n, m) ==>
              && t2[m] == t[m].(nb_simus := t2[m].nb_simus, nb_victoires := t2[m].nb_victoires)
              && t2[m].nb_simus == t[m].nb_simus + 1
              && t2[m].nb_victoires == t[m].nb_victoires + (if TestFin(t[n].etat) == HumainGagne then 0 else 1)
    ensures t2[0].nb_simus == t[0].nb_simus + 1
    ensures t2[n].nb_simus == t[n].nb_simus + 1
    ensures forall m :: n < m < |t| ==> t2[m] == t[m]
    ensures Retropropage(t, t2, n, Recompense(t[n].etat))
    ensures n > 0 ==> exists k :: 0 <= k < |t[0].enfants| && t2[t[0].enfants[k]].nb_simus == t[t[0].enfants[k]].nb_simus + 1
  {
    var v := Recompense(t[n].etat);
    RemonterValide(t, n, v);
    SurCheminRacine(t, n);
    t2 := Remonter(t, n, v);
    assert SurChemin(t, n, n);
    forall m | n < m < |t| ensures t2[m] == t[m] {
      if SurChemin(t, n, m) { SurCheminBorne(t, n, m); }
    }
    if n > 0 {
      CheminParEnfantRacine(t, n);
      var k :| 0 <= k < |t[0].enfants| && SurChemin(t, n, t[0].enfants[k]);
      assert t2[t[0].enfants[k]].nb_simus == t[t[0].enfants[k]].nb_simus + 1;
    }
  }

  /** The rollout of the source's simulation, in place on the state of node `n`. */
  method SimulerNoeud(t: Arene, n: nat) returns (t2: Arene)
    requires Valide(t) && n < |t|
    ensures Valide(t2) && MemeStructure(t, t2) && Prolonge(t, t2)
    ensures t2[n] == t[n].(etat := Simulation(t[n].etat))
    ensures forall m :: 0 <= m < |t| && m != n ==> t2[m] == t[m]
    ensures CadreHors(t, t2, n)
  {
    var e := Simulation(t[n].etat);
    EtatRemplaceValide(t, n, e);
    t2 := t[n := t[n].(etat := e)];
  }

  /**
   What the expansion leaves below the leaf `f`: one node exactly when `f` is
   unvisited and its game goes on, hanging below `f`, unvisited, for the move
   choisirMeilleurCoupGagnant picks played successfully on `f`'s state.
   */
  predicate Expansion(t: Arene, t2: Arene, f: nat, alea: nat) {
    && f < |t|
    && (|t2| == |t| || |t2| == |t| + 1)
    && (|t2| == |t| + 1 <==> AEtendre(t[f]))
    && (|t2| == |t| + 1 ==>
          && t2[|t|].parent == Some(f) && t2[|t|].nb_simus == 0
          && t2[|t|].joueur == 1 - t[f].joueur
          && t2[|t|].coup == Some(CoupChoisi(t[f], alea))
          && JouerCoup(t[f].etat, t2[|t|].coup.value) == (t2[|t|].etat, 1))
  }

  /**
   The expansion and the rollout of a cycle, on the leaf `f` the descent
   reached: at most one child is added under `f`, and `f`'s own state is
   played to the end of a game.
   */
  method Developper(t: Arene, f: nat, alea: nat) returns (t2: Arene)
    requires Valide(t) && f < |t| && t[f].enfants == []
    ensures Valide(t2) && Prolonge(t, t2)
    ensures Expansion(t, t2, f, alea)
    ensures CadreHors(t, t2, f)
    ensures t2[f].etat == Simulation(t[f].etat)
  {
    var t1 := CreationEnfants(t, f, alea);
    t2 := SimulerNoeud(t1, f);
    ProlongeTransitif(t, t1, t2);
    CadreHorsTransitif(t, t1, t2, f);
  }

  /**
   A cycle once the descent has reached the leaf `f`: expansion, rollout of
   `f`'s own state, and backpropagation from `f`. The leaf gains the
   simulation; a child the expansion added is not simulated.
   */
  method Etape(t: Arene, f: nat, alea: nat) returns (t2: Arene)
    requires Valide(t) && f < |t| && t[f].enfants == []
    ensures Valide(t2) && Prolonge(t, t2)
    ensures |t2| == |t| || |t2| == |t| + 1
    ensures t2[0].nb_simus == t[0].nb_simus + 1
    ensures f > 0 && t[0].enfants != [] ==>
              exists k :: 0 <= k < |t[0].enfants| && t2[t[0].enfants[k]].nb_simus == t[t[0].enfants[k]].nb_simus + 1
    ensures t2[f].etat == Simulation(t[f].etat)
    ensures t2[f].nb_simus == t[f].nb_simus + 1
    ensures Expansion(t, t2, f, alea)
    ensures Retropropage(t, t2, f, Recompense(Simulation(t[f].etat)))
  {
    var t1 := Developper(t, f, alea);
    t2 := FinSimulation(t1, f);
    ProlongeTransitif(t, t1, t2);
    CadreRetropropage(t, t1, t2, f, Recompense(t1[f].etat));
    RetropropageRacine(t, t2, f, Recompense(t1[f].etat));
  }

  /**
   What one cycle with the random value `alea` makes of the tree `t`: the
   descent reaches the leaf `f`, the expansion adds below it as `Expansion`
   says, `f`'s own state is played to the end, and the reward of that end
   is backpropagated from `f`.
   */
  ghost predicate CycleFait(t: Arene, t2: Arene, alea: nat, ucb: (int, int, int) -> real) {
    && Valide(t) && UcbPositif(ucb)
    && Valide(t2) && Prolonge(t, t2)
    && var f := Descente(t, 0, ucb);
       && Expansion(t, t2, f, alea)
       && t2[f].etat == Simulation(t[f].etat)
       && Retropropage(t, t2, f, Recompense(Simulation(t[f].etat)))
  }

  /**
   One cycle of the search: descend from the root to a node without children,
   expand it, play the rollout in place on that node's own state, and
   backpropagate from that node. A child added by the expansion is not
   simulated in this cycle, and hangs below the leaf the descent reached.
   */
  method Cycle(t: Arene, alea: nat, ucb: (int, int, int) -> real) returns (t2: Arene)
    requires Valide(t) && UcbPositif(ucb)
    ensures Valide(t2) && Prolonge(t, t2)
    ensures CycleFait(t, t2, alea, ucb)
    ensures t2[0].nb_simus == t[0].nb_simus + 1
    ensures t[0].enfants != [] ==>
              exists k :: 0 <= k < |t[0].enfants| && t2[t[0].enfants[k]].nb_simus == t[t[0].enfants[k]].nb_simus + 1
    ensures var f := Descente(t, 0, ucb); t2[f].nb_simus == t[f].nb_simus + 1
  {
    var f := Descente(t, 0, ucb);
    t2 := Etape(t, f, alea);
  }

  // ---------------------------------------------------------------- the driver

  /** A fresh child of node `p` for move `c`: the move played on `p`'s state, no statistics. */
  predicate EnfantNeuf(t: Arene, x: nat, p: nat, c: Coup)
    requires x < |t| && p < |t| && CoupDansPlateau(c)
  {
    && t[x].parent == Some(p) && t[x].enfants == []
    && t[x].nb_simus == 0 && t[x].nb_victoires == 0
    && t[x].coup == Some(c)
    && t[x].joueur == 1 - t[p].joueur
    && t[x].etat == JouerCoup(t[p].etat, c).0
  }

  /**
   A root whose children are all the other nodes, in index order, each without
   children or statistics, is a valid tree.
   */
  lemma EtoileValide(t: Arene)
    requires 0 < |t| <= 1 + LARGEUR_MAX
    requires t[0].parent == None && t[0].enfants == seq(|t| - 1, k => k + 1)
    requires 0 <= t[0].nb_victoires <= t[0].nb_simus
    requires forall m :: 0 < m < |t| ==>
               t[m].parent == Some(0) && t[m].enfants == [] && t[m].nb_simus == 0 && t[m].nb_victoires == 0
    ensures Valide(t)
  {
    forall m | 0 < m < |t| ensures m in t[0].enfants {
      assert t[0].enfants[m - 1] == m;
    }
  }

  /** The root's children are, in order, the nodes for the moves `coups`. */
  predicate RacineDe(t: Arene, coups: seq<Coup>)
    requires Valide(t)
  {
    && |t[0].enfants| == |coups|
    && forall k :: 0 <= k < |coups| ==> t[t[0].enfants[k]].coup == Some(coups[k])
  }

  /**
   The tree the driver builds before searching, by adding one child of the
   root per move: a root holding the live state, followed by one unvisited
   child per move, in the order of the moves.
   */
  function Initialisation(e: Etat, coups: seq<Coup>): (t: Arene)
    requires CoupsDansPlateau(coups) && |coups| <= LARGEUR_MAX
    ensures Valide(t) && |t| == 1 + |coups|
    ensures t[0] == NouvelleRacine(e).(enfants := seq(|coups|, k => k + 1))
    ensures forall k :: 0 <= k < |coups| ==> t[1 + k] == NouveauNoeud(NouvelleRacine(e), 0, coups[k])
  {
    var racine := NouvelleRacine(e);
    var t := [racine.(enfants := seq(|coups|, k => k + 1))]
             + seq(|coups|, k requires 0 <= k < |coups| => NouveauNoeud(racine, 0, coups[k]));
    EtoileValide(t);
    t
  }

  /**
   The children of the root in the initial tree are fresh nodes for the moves,
   in order.
   */
  lemma InitialisationEnfants(e: Etat, coups: seq<Coup>)
    requires CoupsDansPlateau(coups) && |coups| <= LARGEUR_MAX
    ensures RacineDe(Initialisation(e, coups), coups)
    ensures var t := Initialisation(e, coups);
            forall k :: 0 <= k < |coups| ==> t[0].enfants[k] == 1 + k && EnfantNeuf(t, 1 + k, 0, coups[k])
  {
    var t := Initialisation(e, coups);
    forall k | 0 <= k < |coups| ensures t[0].enfants[k] == 1 + k && EnfantNeuf(t, 1 + k, 0, coups[k]) {
      assert t[0].enfants[k] == 1 + k;
      assert t[1 + k] == NouveauNoeud(NouvelleRacine(e), 0, coups[k]);
    }
  }

  /** A tree grown from one whose root children stand for `coups` still has them. */
  lemma ProlongeGardeRacine(t: Arene, t2: Arene, coups: seq<Coup>)
    requires Valide(t) && Valide(t2) && Prolonge(t, t2)
    requires coups != [] && RacineDe(t, coups)
    ensures RacineDe(t2, coups)
  {
    assert t2[0].enfants == t[0].enfants;
    forall k | 0 <= k < |coups| ensures t2[t2[0].enfants[k]].coup == Some(coups[k]) {
      assert t2[t[0].enfants[k]].coup == t[t[0].enfants[k]].coup;
    }
  }

  /**
   The trees `tr` are `n` steps of `pas`, one per value of `aleas`:
   `pas(a, x, b)` says that a step with the value `x` turns `a` into `b`.
   */
  ghost predicate Trace(tr: seq<Arene>, aleas: seq<nat>, n: nat, pas: (Arene, nat, Arene) -> bool) {
    && n <= |aleas| && |tr| == n + 1
    && forall i {:trigger aleas[i]} :: 0 <= i < n ==> pas(tr[i], aleas[i], tr[i + 1])
  }

  /** One more step extends the trace. */
  lemma TraceEtendue(tr: seq<Arene>, aleas: seq<nat>, n: nat, pas: (Arene, nat, Arene) -> bool, t2: Arene)
    requires Trace(tr, aleas, n, pas) && n < |aleas|
    requires pas(tr[n], aleas[n], t2)
    ensures Trace(tr + [t2], aleas, n + 1, pas) && (tr + [t2])[0] == tr[0]
  {
    var tr2 := tr + [t2];
    forall i | 0 <= i < n + 1 ensures pas(tr2[i], aleas[i], tr2[i + 1]) {
      assert tr2[i] == tr[i];
      if i < n { assert tr2[i + 1] == tr[i + 1]; }
    }
  }

  /** A step of the search: one cycle with the random value `alea`. */
  ghost function PasDeCycle(ucb: (int, int, int) -> real): (Arene, nat, Arene) -> bool
  {
    (t: Arene, alea: nat, t2: Arene) => CycleFait(t, t2, alea, ucb)
  }

  /** A step that keeps the tree valid and grows it, gives the root one more simulation and one of its children one more visit. */
  predicate PasRacine(t: Arene, t2: Arene) {
    && Valide(t) && Valide(t2) && Prolonge(t, t2)
    && t2[0].nb_simus == t[0].nb_simus + 1
    && (t[0].enfants != [] ==>
          exists k :: 0 <= k < |t[0].enfants| && t2[t[0].enfants[k]].nb_simus == t[t[0].enfants[k]].nb_simus + 1)
  }

  /** Every cycle is such a step. */
  lemma CycleFaitRacine(ucb: (int, int, int) -> real)
    ensures forall t: Arene, alea: nat, t2: Arene :: PasDeCycle(ucb)(t, alea, t2) ==> PasRacine(t, t2)
  {
    forall t: Arene, alea: nat, t2: Arene | PasDeCycle(ucb)(t, alea, t2) ensures PasRacine(t, t2) {
      var f := Descente(t, 0, ucb);
      RetropropageRacine(t, t2, f, Recompense(Simulation(t[f].etat)));
    }
  }

  /** A cycle on a tree grown from `t` visits a child of `t`'s root. */
  lemma EnfantRacineVisite(t: Arene, avant: Arene, t2: Arene)
    requires Valide(t) && Valide(avant) && t[0].enfants != [] && Prolonge(t, avant) && Prolonge(avant, t2)
    requires exists k :: 0 <= k < |avant[0].enfants| && t2[avant[0].enfants[k]].nb_simus == avant[avant[0].enfants[k]].nb_simus + 1
    ensures exists k :: 0 <= k < |t[0].enfants| && t2[t[0].enfants[k]].nb_simus > 0
  {
    var k :| 0 <= k < |avant[0].enfants| && t2[avant[0].enfants[k]].nb_simus == avant[avant[0].enfants[k]].nb_simus + 1;
    assert avant[0].enfants == t[0].enfants;
    assert t2[t[0].enfants[k]].nb_simus > 0;
  }

  /**
   Where the search stands after `i` cycles from `t`: the tree `t2` is valid
   and grown from `t`, the root has `i` more simulations, and after one cycle
   a root child has been visited.
   */
  predicate Recherche(t: Arene, t2: Arene, i: nat) {
    && Valide(t) && Valide(t2) && Prolonge(t, t2)
    && t2[0].nb_simus == t[0].nb_simus + i
    && (i > 0 && t[0].enfants != [] ==>
          exists k :: 0 <= k < |t[0].enfants| && t2[t[0].enfants[k]].nb_simus > 0)
  }

  /** One more step of that kind moves the search on by one. */
  lemma RechercheAvance(t: Arene, avant: Arene, t2: Arene, i: nat)
    requires Recherche(t, avant, i) && PasRacine(avant, t2)
    ensures Recherche(t, t2, i + 1)
  {
    ProlongeTransitif(t, avant, t2);
    if t[0].enfants != [] {
      EnfantRacineVisite(t, avant, t2);
    }
  }

  /** After the first `k` steps of such a trace from a valid tree, the search stands where `Recherche` says. */
  lemma {:induction false} TraceRecherche(tr: seq<Arene>, aleas: seq<nat>, n: nat, pas: (Arene, nat, Arene) -> bool, k: nat)
    requires Trace(tr, aleas, n, pas) && Valide(tr[0]) && k <= n
    requires forall a: Arene, x: nat, b: Arene :: pas(a, x, b) ==> PasRacine(a, b)
    ensures Recherche(tr[0], tr[k], k)
    decreases k
  {
    if k > 0 {
      TraceRecherche(tr, aleas, n, pas, k - 1);
      assert pas(tr[k - 1], aleas[k - 1], tr[k]);
      RechercheAvance(tr[0], tr[k - 1], tr[k], k - 1);
    }
  }

  /**
   The search loop of the driver, one cycle per random value: the clock that
   stops the source's loop is replaced by the number of values. The trees in
   between are returned as a ghost trace: each one is what a cycle makes of the
   one before. The root gains one simulation per cycle, and after a cycle from
   a root with children one of them has been visited.
   */
  method Chercher(t: Arene, aleas: seq<nat>, ucb: (int, int, int) -> real) returns (t2: Arene, ghost tr: seq<Arene>)
    requires Valide(t) && UcbPositif(ucb)
    ensures Valide(t2) && Prolonge(t, t2)
    ensures Trace(tr, aleas, |aleas|, PasDeCycle(ucb)) && tr[0] == t && tr[|aleas|] == t2
    ensures t2[0].nb_simus == t[0].nb_simus + |aleas|
    ensures |aleas| > 0 && t[0].enfants != [] ==>
              exists k :: 0 <= k < |t[0].enfants| && t2[t[0].enfants[k]].nb_simus > 0
  {
    t2 := t;
    tr := [t];
    var i := 0;
    while i < |aleas|
      invariant Trace(tr, aleas, i, PasDeCycle(ucb)) && tr[0] == t && tr[i] == t2 && Valide(t2)
    {
      t2 := Cycle(t2, aleas[i], ucb);
      TraceEtendue(tr, aleas, i, PasDeCycle(ucb), t2);
      tr := tr + [t2];
      i := i + 1;
    }
    CycleFaitRacine(ucb);
    TraceRecherche(tr, aleas, |aleas|, PasDeCycle(ucb), |aleas|);
  }

  /**
   The end of ordijoue_mcts: once a child of the root, one per legal move,
   has been visited, the final choice picks one, and its move is played.
   */
  method JouerChoixFinal(e: Etat, t: Arene) returns (c: Coup, e2: Etat)
    requires Valide(t) && RacineDe(t, CoupsPossibles(e))
    requires exists k :: 0 <= k < |t[0].enfants| && t[t[0].enfants[k]].nb_simus > 0
    ensures exists k :: 0 <= k < |t[0].enfants| && ChoixFinal(t) == Some(k) && t[t[0].enfants[k]].coup == Some(c)
    ensures c in CoupsPossibles(e)
    ensures JouerCoup(e, c) == (e2, 1)
  {
    ChoixFinalAucun(t);
    var k := ChoixFinal(t).value;
    c := CoupsPossibles(e)[k];
    e2 := JouerCoup(e, c).0;
  }

  /**
   The source's ordijoue_mcts: the tree with one child per legal move, the
   search loop (at least one cycle, as the source's loop runs once), then the
   move of the root child the final choice picks, the first of greatest win
   ratio, is played. The move is legal and the play succeeds; the search tree
   is returned too.
   */
  method OrdiJoueMcts(e: Etat, aleas: seq<nat>, ucb: (int, int, int) -> real) returns (c: Coup, e2: Etat, t: Arene, ghost tr: seq<Arene>)
    requires UcbPositif(ucb)
    requires |aleas| >= 1
    requires CoupsPossibles(e) != []
    ensures Valide(t) && t[0].nb_simus == |aleas|
    ensures Trace(tr, aleas, |aleas|, PasDeCycle(ucb)) && tr[0] == Initialisation(e, CoupsPossibles(e)) && tr[|aleas|] == t
    ensures RacineDe(t, CoupsPossibles(e))
    ensures exists k :: 0 <= k < |t[0].enfants| && ChoixFinal(t) == Some(k) && t[t[0].enfants[k]].coup == Some(c)
    ensures c in CoupsPossibles(e)
    ensures JouerCoup(e, c) == (e2, 1)
  {
    var coups := CoupsPossibles(e);
    var t0 := Initialisation(e, coups);
    InitialisationEnfants(e, coups);
    t, tr := Chercher(t0, aleas, ucb);
    ProlongeGardeRacine(t0, t, coups);
    c, e2 := JouerChoixFinal(e, t);
  }
}

=== FILE: regles.dfy ===
/**
 The connect-four rules of jeu.c, the program modelled here: the 6x7 board, the state (board plus the
 player to move), moves, playing a move and listing the legal moves.

 The board is a flat sequence of 42 characters, row-major: the cell of row `i`
 (0 = top) and column `j` (0 = left) is at index `i * NB_COLONNES + j`.
 A blank `' '` marks an empty cell; the rules only ever write `'X'` (human)
 and `'O'` (computer), but any character is accepted, as in the source.
 */
module Regles {

  const NB_LIGNES: int := 6
  const NB_COLONNES: int := 7
  const NB_COUPS_GAGNANT: int := 4
  /** NB_LIGNES * NB_COLONNES */
  const NB_CASES: int := 42
  const VIDE: char := ' '

  datatype Option<T> = None | Some(value: T)

  type Plateau = s: seq<char> | |s| == NB_CASES witness seq(42, _ => ' ')

  /** `joueur` is the player to move: 0 for the human, nonzero for the computer. */
  datatype Etat = Etat(joueur: int, plateau: Plateau)

  /** The destination cell of a stone dropped in a column. */
  datatype Coup = Coup(ligne: int, colonne: int)

  predicate DansPlateau(i: int, j: int) {
    0 <= i < NB_LIGNES && 0 <= j < NB_COLONNES
  }

  predicate CoupDansPlateau(c: Coup) {
    DansPlateau(c.ligne, c.colonne)
  }

  function Indice(i: int, j: int): (p: nat)
    requires DansPlateau(i, j)
    ensures p < NB_CASES
  {
    i * NB_COLONNES + j
  }

  function Case(b: Plateau, i: int, j: int): char
    requires DansPlateau(i, j)
  {
    b[Indice(i, j)]
  }

  /** The board of the initial state: every cell blank. */
  function PlateauVide(): Plateau {
    seq(NB_CASES, _ => VIDE)
  }

  /** A state is a value, so a copy is the state itself; kept to mirror the source. */
  function CopieEtat(e: Etat): Etat {
    e
  }

  /** The stone of the player to move. */
  function Pion(joueur: int): char {
    if joueur != 0 then 'O' else 'X'
  }

  /** Number of non-blank cells in `s`, counted over its prefixes. */
  function Occupees(s: seq<char>): (n: nat)
    ensures n <= |s|
  {
    if |s| == 0 then 0
    else Occupees(s[..|s| - 1]) + (if s[|s| - 1] != VIDE then 1 else 0)
  }

  /** Number of blank cells of a board. */
  function Vides(b: Plateau): nat {
    NB_CASES - Occupees(b)
  }

  predicate Plein(b: Plateau) {
    forall i, j | 0 <= i < NB_LIGNES && 0 <= j < NB_COLONNES :: Case(b, i, j) != VIDE
  }

  /**
   Plays `c` for the player to move. The second component is the source's
   return code: 0 (and the state unchanged) when the cell is occupied,
   1 when the stone was placed and the turn passed.
   */
  function JouerCoup(e: Etat, c: Coup): (r: (Etat, int))
    requires CoupDansPlateau(c)
    ensures r.1 == 0 <==> Case(e.plateau, c.ligne, c.colonne) != VIDE
    ensures r.1 == 0 || r.1 == 1
    ensures r.1 == 0 ==> r.0 == e
    ensures r.1 == 1 ==>
              && Case(r.0.plateau, c.ligne, c.colonne) == (if e.joueur != 0 then 'O' else 'X')
              && r.0.joueur == 1 - e.joueur
              && forall i, j :: DansPlateau(i, j) && (i != c.ligne || j != c.colonne) ==>
                                Case(r.0.plateau, i, j) == Case(e.plateau, i, j)
  {
    var p := Indice(c.ligne, c.colonne);
    if e.plateau[p] != VIDE then (e, 0)
    else (Etat(1 - e.joueur, e.plateau[p := Pion(e.joueur)]), 1)
  }

  /** Writing a non-blank character over a blank cell adds one occupied cell. */
  lemma {:induction false} OccupeesEcriture(s: seq<char>, p: int, x: char)
    requires 0 <= p < |s| && s[p] == VIDE && x != VIDE
    ensures Occupees(s[p := x]) == Occupees(s) + 1
    decreases |s|
  {
    var n := |s| - 1;
    if p == n {
      assert s[p := x][..n] == s[..n];
    } else {
      assert s[p := x][..n] == s[..n][p := x];
      OccupeesEcriture(s[..n], p, x);
    }
  }

  /** A board is full exactly when all 42 cells are counted as occupied. */
  lemma {:induction false} OccupeesToutes(s: seq<char>)
    ensures Occupees(s) == |s| <==> forall p :: 0 <= p < |s| ==> s[p] != VIDE
    decreases |s|
  {
    if |s| > 0 {
      var n := |s| - 1;
      OccupeesToutes(s[..n]);
      if Occupees(s) == |s| {
        assert Occupees(s[..n]) == n && s[n] != VIDE;
        forall p | 0 <= p < |s| ensures s[p] != VIDE {
          if p < n { assert s[..n][p] == s[p]; }
        }
      } else if forall p :: 0 <= p < |s| ==> s[p] != VIDE {
        forall p | 0 <= p < n ensures s[..n][p] != VIDE {
          assert s[..n][p] == s[p];
        }
        assert false;
      }
    }
  }

  lemma PleinSsiOccupees(b: Plateau)
    ensures Plein(b) <==> Occupees(b) == NB_CASES
  {
    OccupeesToutes(b);
    if Plein(b) {
      forall p | 0 <= p < NB_CASES ensures b[p] != VIDE {
        var i, j := p / NB_COLONNES, p % NB_COLONNES;
        assert DansPlateau(i, j) && Indice(i, j) == p;
        assert Case(b, i, j) != VIDE;
      }
    }
  }

  /**
   A successful move fills exactly one blank cell; a refused one fills none.
   */
  lemma JouerCoupRemplitUneCase(e: Etat, c: Coup)
    requires CoupDansPlateau(c)
    ensures JouerCoup(e, c).1 == 1 ==> Vides(JouerCoup(e, c).0.plateau) == Vides(e.plateau) - 1
    ensures JouerCoup(e, c).1 == 0 ==> Vides(JouerCoup(e, c).0.plateau) == Vides(e.plateau)
  {
    if JouerCoup(e, c).1 == 1 {
      OccupeesEcriture(e.plateau, Indice(c.ligne, c.colonne), Pion(e.joueur));
    }
  }

  /**
   A successful move is undone by blanking its cell and handing the turn
   back: the state before the move is recovered.
   */
  lemma JouerCoupAnnulable(e: Etat, c: Coup)
    requires CoupDansPlateau(c) && JouerCoup(e, c).1 == 1
    ensures var e2 := JouerCoup(e, c).0;
            Etat(1 - e2.joueur, e2.plateau[Indice(c.ligne, c.colonne) := VIDE]) == e
  {
    var p := Indice(c.ligne, c.colonne);
    var e2 := JouerCoup(e, c).0;
    assert e2.plateau[p := VIDE] == e.plateau;
  }

  /** Playing the same move twice: the second attempt is refused. */
  lemma JouerCoupDeuxFois(e: Etat, c: Coup)
    requires CoupDansPlateau(c)
    ensures JouerCoup(JouerCoup(e, c).0, c).1 == 0
  {
  }

  // ---------------------------------------------------------------- legal moves

  /** Column `j` still has a blank cell. */
  predicate ColonneOuverte(b: Plateau, j: int)
    requires 0 <= j < NB_COLONNES
  {
    exists i :: 0 <= i < NB_LIGNES && Case(b, i, j) == VIDE
  }

  /** `c` names a blank cell and every cell below it in its column is occupied. */
  predicate PlusBasseCaseVide(b: Plateau, c: Coup) {
    && CoupDansPlateau(c)
    && Case(b, c.ligne, c.colonne) == VIDE
    && forall i :: c.ligne < i < NB_LIGNES ==> Case(b, i, c.colonne) != VIDE
  }

  /**
   The scan up column `j` from row `i`: the first blank row at or above `i`,
   or -1 when rows 0..i are all occupied.
   */
  function LigneLibre(b: Plateau, i: int, j: int): (r: int)
    requires -1 <= i < NB_LIGNES && 0 <= j < NB_COLONNES
    ensures -1 <= r <= i
    ensures r >= 0 ==> Case(b, r, j) == VIDE
    ensures forall k :: r < k <= i ==> Case(b, k, j) != VIDE
    decreases i + 1
  {
    if i < 0 || Case(b, i, j) == VIDE then i else LigneLibre(b, i - 1, j)
  }

  /** Some move of `coups` drops into column `c`. */
  predicate ColonneJouee(coups: seq<Coup>, c: int) {
    exists k :: 0 <= k < |coups| && coups[k].colonne == c
  }

  /** The moves of columns j..NB_COLONNES-1, left to right. */
  function CoupsDepuis(b: Plateau, j: int): (coups: seq<Coup>)
    requires 0 <= j <= NB_COLONNES
    ensures |coups| <= NB_COLONNES - j
    ensures forall k :: 0 <= k < |coups| ==>
              j <= coups[k].colonne < NB_COLONNES && PlusBasseCaseVide(b, coups[k])
    ensures forall k, l :: 0 <= k < l < |coups| ==> coups[k].colonne < coups[l].colonne
    decreases NB_COLONNES - j
  {
    if j == NB_COLONNES then []
    else
      var i := LigneLibre(b, NB_LIGNES - 1, j);
      var reste := CoupsDepuis(b, j + 1);
      if i >= 0 then [Coup(i, j)] + reste else reste
  }

  /** A move list with one more move at its head plays that move's column too. */
  lemma ColonneJoueeTete(x: Coup, reste: seq<Coup>, c: int)
    ensures ColonneJouee([x] + reste, c) <==> x.colonne == c || ColonneJouee(reste, c)
  {
    var coups := [x] + reste;
    if ColonneJouee(coups, c) && x.colonne != c {
      var k :| 0 <= k < |coups| && coups[k].colonne == c;
      assert reste[k - 1].colonne == c;
    }
    if ColonneJouee(reste, c) {
      var k :| 0 <= k < |reste| && reste[k].colonne == c;
      assert coups[k + 1].colonne == c;
    }
    if x.colonne == c {
      assert coups[0].colonne == c;
    }
  }

  /** A column is open exactly when the scan up the column finds a blank row. */
  lemma ColonneOuverteLigneLibre(b: Plateau, j: int)
    requires 0 <= j < NB_COLONNES
    ensures ColonneOuverte(b, j) <==> LigneLibre(b, NB_LIGNES - 1, j) >= 0
  {
    if ColonneOuverte(b, j) {
      var x :| 0 <= x < NB_LIGNES && Case(b, x, j) == VIDE;
    }
  }

  /** The scan from column `j` yields a move for exactly the open columns from `j` on. */
  lemma {:induction false} CoupsDepuisColonnes(b: Plateau, j: int)
    requires 0 <= j <= NB_COLONNES
    ensures forall c :: j <= c < NB_COLONNES ==> (ColonneOuverte(b, c) <==> ColonneJouee(CoupsDepuis(b, j), c))
    decreases NB_COLONNES - j
  {
    if j < NB_COLONNES {
      var i := LigneLibre(b, NB_LIGNES - 1, j);
      var reste := CoupsDepuis(b, j + 1);
      CoupsDepuisColonnes(b, j + 1);
      ColonneOuverteLigneLibre(b, j);
      if i >= 0 {
        forall c | j <= c < NB_COLONNES
          ensures ColonneJouee(CoupsDepuis(b, j), c) <==> c == j || ColonneJouee(reste, c)
        {
          ColonneJoueeTete(Coup(i, j), reste, c);
        }
      } else {
        assert !ColonneJouee(reste, j);
      }
    }
  }

  /**
   The legal moves of a state: one per column that has a blank cell, in
   increasing column order, each at the lowest blank cell of its column.
   */
  function CoupsPossibles(e: Etat): (coups: seq<Coup>)
    ensures |coups| <= NB_COLONNES
    ensures forall k :: 0 <= k < |coups| ==> PlusBasseCaseVide(e.plateau, coups[k])
    ensures forall k, l :: 0 <= k < l < |coups| ==> coups[k].colonne < coups[l].colonne
    ensures forall c :: 0 <= c < NB_COLONNES ==> (ColonneOuverte(e.plateau, c) <==> ColonneJouee(coups, c))
  {
    CoupsDepuisColonnes(e.plateau, 0);
    CoupsDepuis(e.plateau, 0)
  }

  /** A board with a blank cell has a legal move. */
  lemma CoupsPossiblesNonVides(e: Etat)
    requires !Plein(e.plateau)
    ensures |CoupsPossibles(e)| > 0
  {
    var i, j :| 0 <= i < NB_LIGNES && 0 <= j < NB_COLONNES && Case(e.plateau, i, j) == VIDE;
    assert ColonneOuverte(e.plateau, j);
  }

  /** In a list of moves in strictly increasing columns, the k-th move's column is at least k. */
  lemma {:induction false} ColonneAuMoinsRang(coups: seq<Coup>, k: nat)
    requires forall a, b :: 0 <= a < b < |coups| ==> coups[a].colonne < coups[b].colonne
    requires forall a :: 0 <= a < |coups| ==> coups[a].colonne >= 0
    requires k < |coups|
    ensures coups[k].colonne >= k
  {
    if k > 0 {
      ColonneAuMoinsRang(coups, k - 1);
    }
  }

  /** When every column is open, the legal moves are one per column, left to right. */
  lemma ToutesColonnesOuvertes(e: Etat)
    requires forall c :: 0 <= c < NB_COLONNES ==> Case(e.plateau, 0, c) == VIDE
    ensures |CoupsPossibles(e)| == NB_COLONNES
    ensures forall k :: 0 <= k < NB_COLONNES ==> CoupsPossibles(e)[k].colonne == k
  {
    var coups := CoupsPossibles(e);
    forall c | 0 <= c < NB_COLONNES ensures ColonneJouee(coups, c) {
      assert ColonneOuverte(e.plateau, c) by { assert Case(e.plateau, 0, c) == VIDE; }
    }
    forall c | 0 <= c < NB_COLONNES ensures c < |coups| && coups[c].colonne == c {
      ToutesColonnesOuvertesRang(coups, c);
    }
  }

  /** A column every move list covers sits at its own rank. */
  lemma {:induction false} ToutesColonnesOuvertesRang(coups: seq<Coup>, c: nat)
    requires |coups| <= NB_COLONNES
    requires forall a, b :: 0 <= a < b < |coups| ==> coups[a].colonne < coups[b].colonne
    requires forall a :: 0 <= a < |coups| ==> coups[a].colonne >= 0
    requires forall c :: 0 <= c < NB_COLONNES ==> ColonneJouee(coups, c)
    requires c < NB_COLONNES
    ensures c < |coups| && coups[c].colonne == c
  {
    assert ColonneJouee(coups, c);
    var k :| 0 <= k < |coups| && coups[k].colonne == c;
    ColonneAuMoinsRang(coups, k);
    if k < c {
      ToutesColonnesOuvertesRang(coups, k);
    }
  }
}

=== FILE: rollout.dfy ===
/**
 The rollout of jeu.c's search (its `simulation`): from a state, each round
 plays one stone in every open column, left to right, on the same state (so
 the players alternate stone by stone), and the test for the end of the game
 is made only between rounds. The rollout ends because each round fills at
 least one blank cell.
 */
module Rollout {
  import opened Regles
  import opened Fin

  predicate CoupsDansPlateau(coups: seq<Coup>) {
    forall k :: 0 <= k < |coups| ==> CoupDansPlateau(coups[k])
  }

  /**
   One round: the moves played in order on the same state, their return codes
   ignored. An occupied cell is never overwritten.
   */
  function JouerTous(e: Etat, coups: seq<Coup>): (r: Etat)
    requires CoupsDansPlateau(coups)
    ensures forall i, j :: DansPlateau(i, j) && Case(e.plateau, i, j) != VIDE ==>
                           Case(r.plateau, i, j) == Case(e.plateau, i, j)
    decreases |coups|
  {
    if |coups| == 0 then e else JouerTous(JouerCoup(e, coups[0]).0, coups[1..])
  }

  /** Blank destination cells in strictly increasing columns, hence pairwise distinct. */
  predicate CoupsLibresDistincts(e: Etat, coups: seq<Coup>) {
    && CoupsDansPlateau(coups)
    && (forall k :: 0 <= k < |coups| ==> Case(e.plateau, coups[k].ligne, coups[k].colonne) == VIDE)
    && (forall k, l :: 0 <= k < l < |coups| ==> coups[k].colonne < coups[l].colonne)
  }

  /**
   When the moves of a round name distinct blank cells, every one of them
   succeeds: the round fills exactly as many cells as it has moves.
   */
  lemma {:induction false} TourComplet(e: Etat, coups: seq<Coup>)
    requires CoupsLibresDistincts(e, coups)
    ensures Vides(JouerTous(e, coups).plateau) == Vides(e.plateau) - |coups|
    decreases |coups|
  {
    if |coups| > 0 {
      var c := coups[0];
      var e1 := JouerCoup(e, c).0;
      JouerCoupRemplitUneCase(e, c);
      assert CoupsLibresDistincts(e1, coups[1..]) by {
        forall k | 0 <= k < |coups[1..]|
          ensures Case(e1.plateau, coups[1..][k].ligne, coups[1..][k].colonne) == VIDE
        {
          assert coups[1..][k] == coups[k + 1];
          assert coups[k + 1].colonne != c.colonne;
        }
      }
      TourComplet(e1, coups[1..]);
    }
  }

  /** Playing the first move of a round on a blank cell, then the rest of the round. */
  lemma JouerTousPremier(e: Etat, c: Coup, reste: seq<Coup>)
    requires CoupDansPlateau(c) && CoupsDansPlateau(reste) && Case(e.plateau, c.ligne, c.colonne) == VIDE
    ensures JouerTous(e, [c] + reste) ==
            JouerTous(Etat(1 - e.joueur, e.plateau[Indice(c.ligne, c.colonne) := Pion(e.joueur)]), reste)
  {
    assert ([c] + reste)[1..] == reste;
  }

  /** A round split in two is played as its first part, then its second part. */
  lemma {:induction false} JouerTousConcat(e: Etat, a: seq<Coup>, b: seq<Coup>)
    requires CoupsDansPlateau(a) && CoupsDansPlateau(b)
    ensures CoupsDansPlateau(a + b)
    ensures JouerTous(e, a + b) == JouerTous(JouerTous(e, a), b)
    decreases |a|
  {
    assert CoupsDansPlateau(a + b) by {
      forall k | 0 <= k < |a + b| ensures CoupDansPlateau((a + b)[k]) {
        if k >= |a| { assert (a + b)[k] == b[k - |a|]; }
      }
    }
    if |a| > 0 {
      assert (a + b)[1..] == a[1..] + b;
      JouerTousConcat(JouerCoup(e, a[0]).0, a[1..], b);
    } else {
      assert a + b == b;
    }
  }

  /** A game the end-of-game test reports as going on has a legal move. */
  lemma EnCoursJouable(e: Etat)
    requires TestFin(e) == Non
    ensures CoupsPossibles(e) != []
  {
    TestFinCorrect(e);
    CoupsPossiblesNonVides(e);
  }

  /**
   The source's simulation, on the state of the node it is given: rounds are
   played until the end-of-game test no longer answers NON. The result is a
   finished game, and a finished game is left as it is.
   */
  function Simulation(e: Etat): (r: Etat)
    ensures TestFin(r) != Non
    ensures TestFin(e) != Non ==> r == e
    decreases Vides(e.plateau)
  {
    if TestFin(e) != Non then e
    else
      var coups := CoupsPossibles(e);
      EnCoursJouable(e);
      TourComplet(e, coups);
      Simulation(JouerTous(e, coups))
  }

  /** The rollout extends the starting board: every stone already on it is kept. */
  lemma {:induction false} SimulationGardePions(e: Etat)
    ensures forall i, j :: DansPlateau(i, j) && Case(e.plateau, i, j) != VIDE ==>
                           Case(Simulation(e).plateau, i, j) == Case(e.plateau, i, j)
    decreases Vides(e.plateau)
  {
    if TestFin(e) != Non {
    } else {
      var coups := CoupsPossibles(e);
      EnCoursJouable(e);
      TourComplet(e, coups);
      SimulationGardePions(JouerTous(e, coups));
    }
  }

  /** X on column 0 and O on column 1, rows 3 to 5: three moves each, X to move. */
  function DepartTemoin(): Etat {
    Etat(0, PlateauVide()[21 := 'X'][22 := 'O'][28 := 'X'][29 := 'O'][35 := 'X'][36 := 'O'])
  }

  /**
   The start position after one round: a fourth stone on each of columns 0
   and 1, and the bottom row of the other columns filled alternately.
   */
  function ApresUnTourTemoin(): Etat {
    Etat(1, DepartTemoin().plateau[14 := 'X'][15 := 'O'][37 := 'X'][38 := 'O'][39 := 'X'][40 := 'O'][41 := 'X'])
  }

  /** The cells of the start position, by row and column. */
  lemma CaseDepart(i: int, j: int)
    requires DansPlateau(i, j)
    ensures Case(DepartTemoin().plateau, i, j) ==
            if i >= 3 && j == 0 then 'X' else if i >= 3 && j == 1 then 'O' else VIDE
  {
  }

  /** The start position has no line of four. */
  lemma DepartSansLigne(i: int, j: int, di: int, dj: int)
    ensures !Aligne(DepartTemoin().plateau, i, j, di, dj)
  {
    if Aligne(DepartTemoin().plateau, i, j, di, dj) {
      CaseDepart(i, j);
      CaseDepart(i + 3 * di, j + 3 * dj);
    }
  }

  /** The game of the start position goes on. */
  lemma DepartEnCours()
    ensures TestFin(DepartTemoin()) == Non
  {
    var b := DepartTemoin().plateau;
    forall i, j, di, dj ensures !Aligne(b, i, j, di, dj) {
      DepartSansLigne(i, j, di, dj);
    }
    assert !Puissance4(b);
    CaseDepart(0, 0);
    assert !Plein(b);
    TestFinCorrect(DepartTemoin());
  }

  /** In the start position, the lowest blank cell of a column is in row 2 for columns 0 and 1, and in row 5 elsewhere. */
  lemma DepartPlusBasseCaseVide(c: Coup)
    requires PlusBasseCaseVide(DepartTemoin().plateau, c)
    ensures c.ligne == if c.colonne <= 1 then 2 else 5
  {
    CaseDepart(c.ligne, c.colonne);
    CaseDepart(if c.colonne <= 1 then 2 else 5, c.colonne);
  }

  /** The legal moves of the start position: above the stones in columns 0 and 1, the bottom elsewhere. */
  lemma DepartCoups()
    ensures CoupsPossibles(DepartTemoin()) ==
            [Coup(2, 0), Coup(2, 1), Coup(5, 2), Coup(5, 3), Coup(5, 4), Coup(5, 5), Coup(5, 6)]
  {
    ToutesColonnesOuvertes(DepartTemoin());
    var coups := CoupsPossibles(DepartTemoin());
    forall k | 0 <= k < NB_COLONNES
      ensures coups[k].ligne == (if k <= 1 then 2 else 5)
    {
      DepartPlusBasseCaseVide(coups[k]);
    }
  }

  /**
   The last five moves of the start position's round, on the bottom row of
   columns 2 to 6: the stones alternate from the human's.
   */
  lemma RangeeDuBasSurCasesVides(b0: Plateau)
    requires b0[37] == VIDE && b0[38] == VIDE && b0[39] == VIDE && b0[40] == VIDE && b0[41] == VIDE
    ensures JouerTous(Etat(0, b0), [Coup(5, 2), Coup(5, 3), Coup(5, 4), Coup(5, 5), Coup(5, 6)])
            == Etat(1, b0[37 := 'X'][38 := 'O'][39 := 'X'][40 := 'O'][41 := 'X'])
  {
    var b1 := b0[37 := 'X'];
    var b2 := b1[38 := 'O'];
    var b3 := b2[39 := 'X'];
    var b4 := b3[40 := 'O'];
    JouerTousPremier(Etat(0, b0), Coup(5, 2), [Coup(5, 3), Coup(5, 4), Coup(5, 5), Coup(5, 6)]);
    JouerTousPremier(Etat(1, b1), Coup(5, 3), [Coup(5, 4), Coup(5, 5), Coup(5, 6)]);
    JouerTousPremier(Etat(0, b2), Coup(5, 4), [Coup(5, 5), Coup(5, 6)]);
    JouerTousPremier(Etat(1, b3), Coup(5, 5), [Coup(5, 6)]);
    JouerTousPremier(Etat(0, b4), Coup(5, 6), []);
  }

  /** The first two moves of the start position's round, above the stones of columns 0 and 1. */
  lemma ColonnesDuDepartSurCasesVides(b0: Plateau)
    requires b0[14] == VIDE && b0[15] == VIDE
    ensures JouerTous(Etat(0, b0), [Coup(2, 0), Coup(2, 1)]) == Etat(0, b0[14 := 'X'][15 := 'O'])
  {
    JouerTousPremier(Etat(0, b0), Coup(2, 0), [Coup(2, 1)]);
    JouerTousPremier(Etat(1, b0[14 := 'X']), Coup(2, 1), []);
  }

  /**
   The round of the start position's legal moves, on any board where their
   seven cells are blank: the stones alternate from the human's.
   */
  lemma TourSurCasesVides(b0: Plateau, debut: seq<Coup>, rangee: seq<Coup>)
    requires debut == [Coup(2, 0), Coup(2, 1)]
    requires rangee == [Coup(5, 2), Coup(5, 3), Coup(5, 4), Coup(5, 5), Coup(5, 6)]
    requires b0[14] == VIDE && b0[15] == VIDE
    requires b0[37] == VIDE && b0[38] == VIDE && b0[39] == VIDE && b0[40] == VIDE && b0[41] == VIDE
    ensures CoupsDansPlateau(debut + rangee)
    ensures JouerTous(Etat(0, b0), debut + rangee)
            == Etat(1, b0[14 := 'X'][15 := 'O'][37 := 'X'][38 := 'O'][39 := 'X'][40 := 'O'][41 := 'X'])
  {
    JouerTousConcat(Etat(0, b0), debut, rangee);
    ColonnesDuDepartSurCasesVides(b0);
    RangeeDuBasSurCasesVides(b0[14 := 'X'][15 := 'O']);
  }
  /** One round from the start position reaches the second position. */
  lemma UnTour()
    ensures JouerTous(DepartTemoin(), CoupsPossibles(DepartTemoin())) == ApresUnTourTemoin()
  {
    var debut := [Coup(2, 0), Coup(2, 1)];
    var rangee := [Coup(5, 2), Coup(5, 3), Coup(5, 4), Coup(5, 5), Coup(5, 6)];
    DepartCoups();
    assert CoupsPossibles(DepartTemoin()) == debut + rangee;
    TourSurCasesVides(DepartTemoin().plateau, debut, rangee);
  }

  /** The cells of the position after one round, by row and column. */
  lemma CaseApres(i: int, j: int)
    requires DansPlateau(i, j)
    ensures Case(ApresUnTourTemoin().plateau, i, j) ==
            if i >= 2 && j == 0 then 'X' else if i >= 2 && j == 1 then 'O'
            else if i == 5 then (if j % 2 == 0 then 'X' else 'O') else VIDE
  {
    CaseDepart(i, j);
  }

  /**
   After the round both players own a vertical line, and the scan meets the
   human's first (its anchor (2, 0) precedes (2, 1)).
   */
  lemma ApresUnTourHumainGagne()
    ensures LigneDe(ApresUnTourTemoin().plateau, 'O')
    ensures TestFin(ApresUnTourTemoin()) == HumainGagne
  {
    var b := ApresUnTourTemoin().plateau;
    CaseApres(2, 0); CaseApres(3, 0); CaseApres(4, 0); CaseApres(5, 0);
    CaseApres(2, 1); CaseApres(3, 1); CaseApres(4, 1); CaseApres(5, 1);
    assert Aligne(b, 2, 1, 1, 0);
    assert Aligne(b, 2, 0, 1, 0);
    assert Ancre(b, 2, 0);
    var r := TestFin(ApresUnTourTemoin());
    TestFinCorrect(ApresUnTourTemoin());
    var i, j :| PremiereAncreDes(b, 0, 0, i, j) && r == Vainqueur(Case(b, i, j));
    CaseApres(i, j);
    assert i == 2 && j == 0;
  }

  /**
   From a position reached by legal play (three stones each, in columns 0 and
   1, human to move), the rollout stops after one round on a board where the
   computer owns a line of four, yet the end-of-game test reports a human win.
   */
  lemma OrdreDuBalayageEnPartie()
    ensures var r := Simulation(DepartTemoin());
            && r == ApresUnTourTemoin()
            && LigneDe(r.plateau, 'O')
            && TestFin(r) == HumainGagne
  {
    DepartEnCours();
    UnTour();
    ApresUnTourHumainGagne();
  }
}

=== FILE: selection.dfy ===
/**
 The two argmax loops of jeu.c's search, over abstract scores: the descent from
 the root that picks, at each node, the child with the greatest B-value, and
 the final choice of the root child with the greatest win ratio.

 Both loops start from a best score of -1 and replace it only by a strictly
 greater score, so the first of several equal best scores is kept. A score
 that is not a number (the 0/0 ratio of an unvisited child) compares false
 with everything and is written `None` here. The UCB1 formula itself, which
 needs floating-point square roots and logarithms, is a parameter `ucb` of
 the parent's simulations, the child's wins and the child's simulations.
 */
module Selection {
  import opened Regles
  import opened Arbre

  /**
   The loop `if (b > max) { max = b; best = i; }` from index `i` on, with the
   best score so far `max` and its index `best`.
   */
  function PremierMaxDepuis(s: seq<Option<real>>, i: nat, max: real, best: Option<nat>): (r: Option<nat>)
    requires i <= |s|
    requires best.None? ==> max == -1.0 && forall k :: 0 <= k < i && s[k].Some? ==> s[k].value <= -1.0
    requires best.Some? ==>
               && best.value < i && s[best.value] == Some(max) && max > -1.0
               && (forall k :: 0 <= k < i && s[k].Some? ==> s[k].value <= max)
               && (forall k :: 0 <= k < best.value && s[k].Some? ==> s[k].value < max)
    ensures r.None? <==> forall k :: 0 <= k < |s| && s[k].Some? ==> s[k].value <= -1.0
    ensures r.Some? ==>
              && r.value < |s| && s[r.value].Some? && s[r.value].value > -1.0
              && (forall k :: 0 <= k < |s| && s[k].Some? ==> s[k].value <= s[r.value].value)
              && (forall k :: 0 <= k < r.value && s[k].Some? ==> s[k].value < s[r.value].value)
    decreases |s| - i
  {
    if i == |s| then best
    else if s[i].Some? && s[i].value > max then PremierMaxDepuis(s, i + 1, s[i].value, Some(i))
    else PremierMaxDepuis(s, i + 1, max, best)
  }

  /**
   The index of the first strictly greatest score above -1, or None when no
   score is above -1 (the source then leaves its result unset).
   */
  function PremierMax(s: seq<Option<real>>): (r: Option<nat>)
    ensures r.None? <==> forall k :: 0 <= k < |s| && s[k].Some? ==> s[k].value <= -1.0
    ensures r.Some? ==>
              && r.value < |s| && s[r.value].Some? && s[r.value].value > -1.0
              && (forall k :: 0 <= k < |s| && s[k].Some? ==> s[k].value <= s[r.value].value)
              && (forall k :: 0 <= k < r.value && s[k].Some? ==> s[k].value < s[r.value].value)
  {
    PremierMaxDepuis(s, 0, -1.0, None)
  }

  /** The B-value given to an unvisited child, above any UCB1 score. */
  const SENTINELLE: real := 1000000.0

  /**
   The UCB1 score is defined and non-negative wherever the source computes it:
   a visited child, whose parent has been simulated at least as often.
   */
  ghost predicate UcbPositif(ucb: (int, int, int) -> real) {
    forall n, w, s :: 0 <= w <= s && 1 <= s <= n ==> ucb(n, w, s) >= 0.0
  }

  /** The B-value of a child: the sentinel when unvisited, else its UCB1 score. */
  function BValeur(parent: Noeud, enfant: Noeud, ucb: (int, int, int) -> real): real {
    if enfant.nb_simus == 0 then SENTINELLE else ucb(parent.nb_simus, enfant.nb_victoires, enfant.nb_simus)
  }

  /**
   The B-values of the children of node `n`, in the order they were added:
   every one is defined, an unvisited child scores the sentinel, a visited one
   its UCB1 score, and none is negative when UCB1 scores are not.
   */
  function ScoresEnfants(t: Arene, n: nat, ucb: (int, int, int) -> real): (s: seq<Option<real>>)
    requires Valide(t) && n < |t|
    ensures |s| == |t[n].enfants|
    ensures forall k :: 0 <= k < |s| ==> s[k].Some?
    ensures forall k :: 0 <= k < |s| && t[t[n].enfants[k]].nb_simus == 0 ==> s[k] == Some(SENTINELLE)
    ensures forall k :: 0 <= k < |s| && t[t[n].enfants[k]].nb_simus > 0 ==>
              s[k] == Some(ucb(t[n].nb_simus, t[t[n].enfants[k]].nb_victoires, t[t[n].enfants[k]].nb_simus))
    ensures UcbPositif(ucb) ==> forall k :: 0 <= k < |s| ==> s[k].value >= 0.0
  {
    var s := seq(|t[n].enfants|, k requires 0 <= k < |t[n].enfants| => Some(BValeur(t[n], t[t[n].enfants[k]], ucb)));
    assert forall k :: 0 <= k < |s| ==> t[t[n].enfants[k]].parent == Some(n);
    s
  }

  /**
   The descent of the search from node `n`: while the node has children, go
   to the child of greatest B-value. It ends on a node without children that
   lies below `n`.
   */
  function Descente(t: Arene, n: nat, ucb: (int, int, int) -> real): (f: nat)
    requires Valide(t) && n < |t| && UcbPositif(ucb)
    ensures f < |t| && t[f].enfants == [] && SurChemin(t, f, n)
    ensures f == n <==> t[n].enfants == []
    decreases |t| - n
  {
    if |t[n].enfants| == 0 then n
    else
      var s := ScoresEnfants(t, n, ucb);
      var k := PremierMax(s).value;
      var c := t[n].enfants[k];
      var f := Descente(t, c, ucb);
      SurCheminBorne(t, f, c);
      assert SurChemin(t, f, n) by {
        SurCheminParent(t, f, c);
      }
      f
  }

  /**
   When UCB1 scores stay below the sentinel, a node with an unvisited child
   descends into its first unvisited child.
   */
  lemma PremierNonVisiteChoisi(t: Arene, n: nat, ucb: (int, int, int) -> real, k: nat)
    requires Valide(t) && n < |t| && UcbPositif(ucb)
    requires forall a, b, c :: ucb(a, b, c) < SENTINELLE
    requires k < |t[n].enfants| && t[t[n].enfants[k]].nb_simus == 0
    requires forall l :: 0 <= l < k ==> t[t[n].enfants[l]].nb_simus > 0
    ensures PremierMax(ScoresEnfants(t, n, ucb)) == Some(k)
  {
    var s := ScoresEnfants(t, n, ucb);
    assert s[k] == Some(SENTINELLE);
  }

  /** The win ratio of a node; None for the undefined 0/0 of an unvisited node. */
  function Ratio(nd: Noeud): Option<real> {
    if nd.nb_simus == 0 then None else Some(nd.nb_victoires as real / nd.nb_simus as real)
  }

  /** A ratio of wins to simulations lies between 0 and 1. */
  lemma RatioBorne(nd: Noeud)
    requires 0 <= nd.nb_victoires <= nd.nb_simus && nd.nb_simus > 0
    ensures Ratio(nd).Some? && 0.0 <= Ratio(nd).value <= 1.0
  {
    var w := nd.nb_victoires as real;
    var n := nd.nb_simus as real;
    assert w / n <= n / n;
  }

  /**
   The win ratios of the root's children, in the order they were added:
   undefined exactly for the unvisited children, and between 0 and 1 for the
   others.
   */
  function RatiosEnfants(t: Arene): (s: seq<Option<real>>)
    requires Valide(t)
    ensures |s| == |t[0].enfants|
    ensures forall k :: 0 <= k < |s| ==> s[k] == Ratio(t[t[0].enfants[k]])
    ensures forall k :: 0 <= k < |s| ==> (s[k].None? <==> t[t[0].enfants[k]].nb_simus == 0)
    ensures forall k :: 0 <= k < |s| && s[k].Some? ==> 0.0 <= s[k].value <= 1.0
  {
    var s := seq(|t[0].enfants|, k requires 0 <= k < |t[0].enfants| => Ratio(t[t[0].enfants[k]]));
    forall k | 0 <= k < |s| && s[k].Some? ensures 0.0 <= s[k].value <= 1.0 {
      RatioBorne(t[t[0].enfants[k]]);
    }
    s
  }

  /**
   The final choice: among the root's children, the index (in the children
   list) of the first visited child with the greatest win ratio; None when no
   child has been visited (`ChoixFinalAucun`, `ChoixFinalMeilleur`).
   */
  function ChoixFinal(t: Arene): (r: Option<nat>)
    requires Valide(t)
    ensures r.Some? ==> r.value < |t[0].enfants| && t[t[0].enfants[r.value]].nb_simus > 0
  {
    PremierMax(RatiosEnfants(t))
  }

  /** The final choice is missing exactly when no child of the root has been visited. */
  lemma ChoixFinalAucun(t: Arene)
    requires Valide(t)
    ensures ChoixFinal(t).None? <==> forall k :: 0 <= k < |t[0].enfants| ==> t[t[0].enfants[k]].nb_simus == 0
  {
  }

  /**
   The chosen child has a win ratio at least that of every visited child, and
   strictly greater than that of every visited child before it.
   */
  lemma ChoixFinalMeilleur(t: Arene)
    requires Valide(t)
    ensures ChoixFinal(t).Some? ==>
            var r := ChoixFinal(t).value;
            && (forall k :: 0 <= k < |t[0].enfants| && t[t[0].enfants[k]].nb_simus > 0 ==>
                  Ratio(t[t[0].enfants[k]]).value <= Ratio(t[t[0].enfants[r]]).value)
            && (forall k :: 0 <= k < r && t[t[0].enfants[k]].nb_simus > 0 ==>
                  Ratio(t[t[0].enfants[k]]).value < Ratio(t[t[0].enfants[r]]).value)
  {
    if ChoixFinal(t).Some? {
      var s := RatiosEnfants(t);
      var r := ChoixFinal(t).value;
      forall k | 0 <= k < |t[0].enfants| && t[t[0].enfants[k]].nb_simus > 0
        ensures Ratio(t[t[0].enfants[k]]).value <= Ratio(t[t[0].enfants[r]]).value
      {
        assert s[k].Some?;
      }
    }
  }
}
